=== FILE: README.md ===
# dev-ai-sdk in Dafny

A Dafny model of the pure logic of dev-ai-sdk, a TypeScript client that sends
one prompt to one of five text-generation backends: Google Gemini, OpenAI,
DeepSeek, Mistral and Anthropic. The model covers three parts of the library:

- **The request and configuration validators** (`Validate`). `validateProvider`
  accepts a request only when exactly one backend section is present and that
  section's model and prompt are non-blank after `trim`. `validateConfig`
  accepts a configuration only when at least one backend is configured and
  every configured backend has a string API key that is non-blank after
  `trim`. It checks the backends in the order google, openai, deepseek,
  mistral, anthropic.
- **The newline-framed stream decoders** for OpenAI, Mistral and DeepSeek
  (`Framing`, `OpenAiStream`, `MistralStream`, `DeepSeekStream`). The three
  source files repeat one reader loop. It appends each decoded chunk to a
  buffer, and while the buffer holds a `'\n'` it cuts off the first line,
  trims it, and skips it if it is blank or not JSON. Otherwise it hands the
  parsed event to a backend-specific mapping.
  - `Framing` states the loop once, as a fold over the characters of each
    chunk (`Feed`). It proves that the `indexOf`/`slice` loop of the source
    (`DecodeStream`) computes that fold.
  - It also proves that the result depends only on the concatenated text
    (`Rechunking`, `FeedSplit`). That result is the events of the text's
    complete lines (`StreamIsDecode`, `StreamIsRunEvents`).
  - An unterminated final fragment never yields anything
    (`UnterminatedTailIgnored`).
- **The non-streaming adapters** for Gemini, Anthropic, DeepSeek and Mistral
  (`GoogleCore`, `Anthropic`, `DeepSeek`, `Mistral`). Each one:
  - builds its request body;
  - maps a non-ok response to the library's error;
  - extracts the text through the adapter's own chain of `?.` and `??`;
  - copies the response body into `raw` only when the relevant flag is
    literally `true`.

JavaScript values are modelled by `Js.Json`, which keeps `undefined` apart
from `null`: `??` and `?.` treat both alike, but `!== undefined` does not. A
read such as `x.key` on `null` or `undefined` throws. That throw, and the other
runtime throws of the adapters, are the `TypeError` case of
`Types.Exception`. `SyntaxError` is `res.json()` rejecting a body that is not
JSON. The library's own error keeps only a message and a provider, because
src/core/error.ts:4-7 stores nothing else.

`JSON.parse` and `JSON.stringify` are parameters of the model
(`parse: string -> Option<Json>`, `stringify: Json -> string`). A response is
what the adapter reads of it: `ok`, `status`, and the parsed body. A stream
body is the sequence of chunks the `TextDecoder` produced.

## Model

| member | source | states |
|---|---|---|
| Validate.ValidateProvider | src/core/validate.ts:6-42 | Fails with provider "core" and "No provider passed" exactly when no section is present. Fails with "Pass only one provider" whenever two or more are present. With exactly one present, it succeeds iff that section's model and prompt both have a non-whitespace character. A blank model gives "<name>.model is required" even when the prompt is blank too. A blank prompt gives "<name>.prompt is required". The error's provider is the backend's name. |
| Validate.SectionCountIsSelected | src/core/validate.ts:7-13 | The sum of the five presence flags equals the number of backends the request selects. |
| Validate.CheckSectionsSingle | src/core/validate.ts:18-41 | With one section present, the five per-backend blocks reduce to the checks of that one section. |
| Validate.CheckSectionsNone | src/core/validate.ts:18-41 | With no section present, the per-backend blocks accept. |
| Validate.ValidateConfig | src/core/validate.ts:44-93 | A missing configuration, or one with no backend section, fails with provider "core" and "no providers configured". Otherwise it succeeds iff every configured backend's key is a string with a non-whitespace character. When some key is unusable, the error names the first such backend in the order google, openai, deepseek, mistral, anthropic. |
| Validate.CheckKeysOk | src/core/validate.ts:59-92 | The key checks pass iff every configured backend among those examined has a usable key. |
| Validate.CheckKeysFirst | src/core/validate.ts:59-92 | The key checks fail with the error of the first configured backend whose key is unusable; later backends are not examined. |
| Validate.ConfiguredEmpty | src/core/validate.ts:49-57 | No backend is configured exactly when all five sections are missing. |
| Js.Trim | src/core/validate.ts:19 | `trim` gives "" iff the string has no non-whitespace character. Otherwise the result is the slice of the input between its first and its last non-whitespace character: it starts and ends with non-whitespace, and everything dropped before and after it is whitespace. |
| Js.TrimStart | src/core/validate.ts:19 | Drops exactly the leading whitespace: the result is a suffix whose first character is not whitespace, and everything dropped is whitespace. |
| Js.TrimEnd | src/core/validate.ts:19 | Drops exactly the trailing whitespace: the result is a prefix whose last character is not whitespace, and everything dropped is whitespace. |
| Js.Prop | src/providers/mistral-stream.ts:71 | Reading a property throws exactly when the value is null or undefined. |
| Js.ToStr | src/core/error.ts:5 | `String(x)` throws exactly when `x` does not render: an object with an own `toString` key, or an array holding one. Otherwise strings, numbers, booleans, `null` and `undefined` give their usual text. An object gives "[object Object]". An empty array gives "". A one-element array gives its element's text, or "" when the element is nullish. |
| Js.ToStrArrCons | src/core/error.ts:5 | `String` of an array of two or more elements is its first element as `join` renders it, then ",", then `String` of the rest. Together with the empty and one-element cases of `Js.ToStr`, this pins the comma join of any array. |
| Js.JoinPiece | src/providers/anthropic.ts:35 | How `join` renders one element: "" for `null` or `undefined`, otherwise `String(x)`, which throws exactly when the element does not render. |
| Js.MapJoinItems | src/providers/openai-stream.ts:67-69 | `map(f).join('')` succeeds iff `f` succeeds on every element. Then its value is the strings `f` gives for the elements, in order, joined with "" (the join of `MappedPieces`). |
| Js.OptMapJoin | src/providers/openai-stream.ts:67-69 | `content?.map(f).join('')` is undefined for nullish content and throws for any other non-array. For an array it succeeds iff `f` succeeds on every element, and then gives the in-order join of the mapped strings. |
| Js.StringTextOf | src/providers/openai-stream.ts:68 | The mapper throws exactly on a nullish part. A part whose `text` is a string maps to that string, and any other part maps to "". |
| Js.JoinedTextOf | src/providers/anthropic.ts:35 | The mapper `c => c.text`, with `join` converting its result, throws exactly on a nullish part or a `text` whose conversion throws. Otherwise it gives a string `text` itself, "" for a nullish `text`, a number's text, and "[object Object]" for an object. |
| Js.NatToString | src/providers/openai-stream.ts:28 | The rendered status is a non-empty run of decimal digits with no leading zero. |
| Js.NatToStringRoundTrip | src/providers/openai-stream.ts:28 | Reading the rendered digits back gives the status, so distinct statuses render differently. |
| Types.PresentAmong | src/core/validate.ts:7-11 | The selected backends are exactly the ones with a section present. They keep the order of the list examined (a subsequence of it), and none occurs twice when the list has no repeats. |
| Types.Selected | src/core/validate.ts:7-13 | The backends a request selects occur in the order google, openai, deepseek, mistral, anthropic, each at most once. |
| Types.ConfiguredAmong | src/core/validate.ts:49-53 | The configured backends are exactly the ones with a configuration section. They are no more than the backends examined, keep their order (a subsequence), and none occurs twice when the list has no repeats. |
| Types.Configured | src/core/validate.ts:49-57 | The configured backends occur in the order google, openai, deepseek, mistral, anthropic, each at most once. |
| Types.PromptText | src/providers/google-core.ts:22 | The text sent is the system text (or nothing), one space, then the prompt. |
| Types.PromptTextWithoutSystem | src/providers/openai-stream.ts:20 | Without a system text the prompt follows a single space. |
| Types.ChatStreamBodySends | src/providers/mistral-stream.ts:18-29 | The streaming chat body carries the model, one user message holding only the prompt, temperature, max_tokens and `stream`. No system text is sent: sections that differ only in system text send the same body. The same body is built at src/providers/deepseek-stream.ts:18-29. |
| Types.ChatBodySends | src/providers/deepseek.ts:11-19 | The non-streaming chat body holds only the model and one user message with the prompt. Temperature, token limit and system text are never sent. The same body is built at src/providers/mistral.ts:11-19. |
| Types.OutputText | src/providers/deepseek.ts:28-31 | The text is `output_text` when that is not nullish. Otherwise, for nullish content it is "". Non-array content throws. For array content it succeeds iff every part maps, and then it is the in-order join of the mapped parts. Every fallback value is a string. |
| Types.StatusMessage | src/providers/anthropic.ts:29 | The error message is the adapter's prefix, then the decimal status, then ": ", then the serialised body. With `Js.NatToStringRoundTrip` the status can be read back from the message. |
| Types.RawWhen | src/providers/google-core.ts:44-57 | `raw` is present iff the flag is literally `true`, and then it is the body unmodified. |
| Framing.IndexOfNewline | src/providers/openai-stream.ts:49 | `indexOf('\n')` is -1 iff the text holds no newline. Otherwise it is a position holding '\n' with none before it. |
| Framing.LineStep | src/providers/openai-stream.ts:50-61 | A blank line yields nothing. A line whose trimmed text does not parse yields nothing. Otherwise the parsed trimmed text goes to the backend mapping. |
| Framing.FeedGrows | src/providers/openai-stream.ts:42-81 | Reading a chunk never takes back an output. A stream that has thrown stays as it is. A buffer without a newline is left without one. |
| Framing.FeedSplit | src/providers/openai-stream.ts:46-51 | Reading `c1` then `c2` gives the same outputs, exception and buffer as reading `c1 + c2` at once, from any state. |
| Framing.FeedNoNewline | src/providers/openai-stream.ts:46-49 | Text without a newline only joins the buffer. |
| Framing.FeedFirstLine | src/providers/openai-stream.ts:49-51 | Reading a buffer whose first newline is at `i` is ending the line before `i`, then reading the rest after it. |
| Framing.FeedAllIsFeed | src/providers/openai-stream.ts:42-46 | Reading the chunks one by one equals reading their concatenation. |
| Framing.ConcatAppend | src/providers/openai-stream.ts:46 | The concatenation of two chunk sequences is the concatenation of their concatenations. |
| Framing.Rechunking | src/providers/openai-stream.ts:42-81 | Any two chunkings of the same text give the same outputs, exception and leftover buffer. |
| Framing.UnterminatedTailIgnored | src/providers/openai-stream.ts:42-44 | A final fragment without a newline yields nothing and does not change whether the stream throws; it only sits in the buffer. |
| Framing.FeedAllBuffer | src/providers/openai-stream.ts:49-51 | After every chunk the buffer holds no newline. |
| Framing.UnlinesAppend | src/providers/openai-stream.ts:49-51 | Joining lines distributes over appending line sequences. |
| Framing.CutFromJoin | src/providers/openai-stream.ts:49-51 | Cutting from any state loses no text, and keeps every piece newline-free. |
| Framing.SplitLinesJoin | src/providers/openai-stream.ts:49-51 | Cutting a text at its newlines loses nothing: the lines, each followed by '\n', and then the tail, give the text back. No piece holds a newline. |
| Framing.RunLines | src/providers/openai-stream.ts:49-80 | A run over the complete lines that does not throw leaves exactly the unterminated tail in the buffer. |
| Framing.Prepend | src/providers/openai-stream.ts:79 | Earlier outputs stay in front of later ones and the state's kind is kept. |
| Framing.ScanPrepend | src/providers/openai-stream.ts:49-80 | A character's effect does not depend on the outputs already yielded. |
| Framing.ScanRunLines | src/providers/openai-stream.ts:49-61 | One character read after some complete lines and a partial line has the same effect as cutting it into the lines first. |
| Framing.FeedRunLines | src/providers/openai-stream.ts:46-80 | Reading text after some lines equals running the lines of the combined text. |
| Framing.FeedIsDecode | src/providers/openai-stream.ts:46-80 | Reading a text from the start is running its complete lines in order and keeping its unterminated tail. |
| Framing.StreamIsDecode | src/providers/openai-stream.ts:42-81 | The reader loop over any chunks computes the line-by-line decoding of their concatenation. |
| Framing.RunLinesIsRunEvents | src/providers/openai-stream.ts:53-61 | Blank and unparseable lines contribute nothing and do not end the stream: running the lines is running their parsed events. |
| Framing.StreamIsRunEvents | src/providers/openai-stream.ts:42-81 | A stream hands the backend mapping exactly the parsed events of the complete lines of the whole text, in order. |
| Framing.OnePerEvent | src/providers/openai-stream.ts:71-79 | When each event maps to one output carrying it, a run that does not throw yields one output per event, in order. |
| Framing.RunEventsFails | src/providers/openai-stream.ts:65-69 | A run throws iff some event's mapping throws, and then with the exception of the first such event. |
| Framing.NextChunk | src/providers/openai-stream.ts:43-46 | Where the loop takes up a chunk, reading the buffer plus the chunk is reading the text up to that chunk. |
| Framing.FailedStays | src/providers/openai-stream.ts:42-81 | A throw while reading one chunk ends the whole stream with that exception. |
| Framing.DecodeStream | src/providers/openai-stream.ts:40-81 | The source's loop computes the character fold over all chunks. The loop appends each chunk, cuts at `indexOf('\n')`, trims, skips, parses and yields. |
| Framing.ErrorMessage | src/providers/openai-stream.ts:27-36 | The pre-stream message is the default when the body is not JSON or has no `error.message`. A string message is kept. A number, boolean or array is converted with `String`. An object gives "[object Object]", and the conversion throws exactly when the value does not render. |
| Framing.Stream | src/providers/openai-stream.ts:8-36 | A missing section throws before anything else. A response that is not ok or has no body throws before anything is yielded, with the library error carrying the backend's name. If the `Error` constructor cannot convert the message, a TypeError is thrown instead. |
| Framing.StreamEvents | src/providers/openai-stream.ts:38-81 | Past the shell, a stream's result is the run of the events of the text's complete lines, and its leftover buffer holds no newline. |
| Framing.StreamRechunking | src/providers/openai-stream.ts:42-81 | Chunk boundaries never change a stream's result. |
| OpenAiStream.BodyPassesSettings | src/providers/openai-stream.ts:18-24 | The body sends exactly model, input, temperature, max_output_tokens and `stream: true`. The two settings arrive unchanged. |
| OpenAiStream.Event | src/providers/openai-stream.ts:65-77 | A null event throws. Otherwise the event yields exactly one output, or throws when its text does. The output's text follows the `output_text` chain, and `raw` is the event. `done` holds iff `output_text` or the first output's content is not undefined. The provider is "openai". |
| OpenAiStream.EventContentParts | src/providers/openai-stream.ts:67-69 | With no usable `output_text`, the mapping succeeds iff every content part is non-null. Then the text is the in-order join of the parts, where each part contributes its `text` when that is a string and "" otherwise. |
| OpenAiStream.NullOutputTextIsDone | src/providers/openai-stream.ts:73 | For every event whose `output_text` is null, an output reports `done`. When the event also has no content, its text is "". |
| OpenAiStream.OpenAiStream | src/providers/openai-stream.ts:8-36 | A missing `openai` section throws the "openai" error before any request. A non-ok or bodiless response throws an "openai" error before yielding. Its message is the body's `error.message`, else "OpenAI streaming error <status>". An `error.message` that does not render gives a TypeError instead. |
| OpenAiStream.OnePerParsedLine | src/providers/openai-stream.ts:49-80 | Exactly one output per parsed non-blank line, in line order, each carrying its event. The stream throws iff some event's mapping throws. |
| OpenAiStream.Rechunked | src/providers/openai-stream.ts:42-81 | Chunk boundaries never change the OpenAI stream's result. |
| MistralStream.Event | src/providers/mistral-stream.ts:70-75 | A null event throws. Otherwise the text `choices[0].message.content ?? ''` is yielded iff it is truthy, and nothing is yielded otherwise. A non-null event never throws. |
| MistralStream.StringContent | src/providers/mistral-stream.ts:70-75 | A string content is yielded iff it is non-empty. A missing content yields nothing. |
| MistralStream.Yielded | src/providers/mistral-stream.ts:73-75 | The reference list of yielded texts is no longer than the events, and every member is truthy. |
| MistralStream.RunYields | src/providers/mistral-stream.ts:53-76 | A run that does not throw yields exactly the truthy texts of the events, in order. |
| MistralStream.MistralStream | src/providers/mistral-stream.ts:8-41 | A missing `mistral` section throws the "mistral" error before any request. A non-ok or bodiless response throws a "mistral" error before yielding, with default message "Mistral streaming error <status>". An `error.message` that does not render gives a TypeError instead. |
| MistralStream.YieldsTruthyTexts | src/providers/mistral-stream.ts:47-77 | Once streaming, the stream throws iff some parsed event is null. Otherwise it yields the truthy texts of the parsed events, in line order. |
| MistralStream.Rechunked | src/providers/mistral-stream.ts:47-77 | Chunk boundaries never change the Mistral stream's result. |
| DeepSeekStream.Event | src/providers/deepseek-stream.ts:71 | Every parsed event is yielded unchanged. |
| DeepSeekStream.RunYieldsEvents | src/providers/deepseek-stream.ts:54-72 | Running the events yields all of them, in order, and never throws. |
| DeepSeekStream.DeepSeekStream | src/providers/deepseek-stream.ts:8-41 | A missing `deepseek` section throws the "deepseek" error before any request. A non-ok or bodiless response throws a "deepseek" error before yielding, with default message "Deepseek streaming error <status>". An `error.message` that does not render gives a TypeError instead. |
| DeepSeekStream.YieldsEveryEvent | src/providers/deepseek-stream.ts:47-74 | Once streaming, the stream never throws. It yields exactly the parsed events of the complete lines, including events with no text, and leaves only the unterminated tail. |
| DeepSeekStream.Rechunked | src/providers/deepseek-stream.ts:47-74 | Chunk boundaries never change the DeepSeek stream's result. |
| GoogleCore.BodySends | src/providers/google-core.ts:17-31 | The body holds only `contents` and `generationConfig`. The one part's text is the system text and prompt. Temperature and maxOutputTokens arrive unchanged. |
| GoogleCore.ResponseText | src/providers/google-core.ts:42 | `data` is `candidates[0].content.parts[0].text`, or "" when that is nullish. A null body throws. |
| GoogleCore.GoogleCoreAsWritten | src/providers/google-core.ts:4-58 | As written: a missing section throws the "google" error. A body that is not JSON rejects before the status is looked at. A non-ok response throws an error with message "google" and provider "API_ERROR". When the backend's message cannot be rendered, the template literal throws a TypeError first. |
| GoogleCore.ErrorLosesBackendMessage | src/providers/google-core.ts:37-40 | As written, every non-ok response whose message renders throws the same error whatever the backend said, and its provider is not "google". A message that does not render gives a TypeError. |
| GoogleCore.BackendMessage | src/providers/google-core.ts:38 | The backend's `error.message` as the template literal renders it, or "Gemini error" when there is none. A string is kept. Numbers, booleans and arrays are converted with `String`, and an object gives "[object Object]". The rendering throws exactly when the value does not render. |
| GoogleCore.GoogleCore | src/providers/google-core.ts:4-58 | Corrected adapter: a non-ok response throws "Gemini error <backend message>" with provider "google". It throws a TypeError exactly where the adapter as written does. Otherwise it behaves as written. |
| GoogleCore.ErrorKeepsBackendMessage | src/providers/google-core.ts:37-40 | Corrected, a non-ok error whose message renders names "google" and carries the backend's message after "Gemini error ". |
| GoogleCore.SuccessShape | src/providers/google-core.ts:42-57 | A success has provider "google", the request's model, the text under `data`, never nullish. `raw` is present iff the section's `raw` is literally `true`, and then it is the body. |
| Anthropic.BodySends | src/providers/anthropic.ts:16-23 | The body holds only model, max_tokens, messages and temperature. `max_tokens` is the section's limit or 1024. No system text is sent. |
| Anthropic.ResponseText | src/providers/anthropic.ts:32-36 | The text is `content[0].text` when that is not nullish. Otherwise it follows the `output_text` and content-join chain. A null body throws. |
| Anthropic.TextFallsBack | src/providers/anthropic.ts:32-36 | When none of the three candidates is present, the text is "". |
| Anthropic.Anthropic | src/providers/anthropic.ts:4-52 | A missing section throws the "anthropic" error. A body that is not JSON rejects. A non-ok response throws "Anthropic error <status>: <serialised body>". A success has the text under `data`, provider "anthropic" and the request's model. Its `raw` is present iff the section's flag is literally `true`, and then it is the body. Every library error names "anthropic". |
| DeepSeek.BuildRequest | src/providers/deepseek.ts:11-19 | A missing `deepseek` section throws a TypeError while the request is built. Otherwise the chat body is sent. |
| DeepSeek.ResponseText | src/providers/deepseek.ts:28-31 | The text follows the `output_text ?? join ?? ''` chain. A null body throws. |
| DeepSeek.DeepSeek | src/providers/deepseek.ts:4-47 | A missing section throws a TypeError. A body that is not JSON rejects. A non-ok response throws "Deepseek error <status>: <serialised body>" with provider "Deepseek". A success has the text under `text`, provider "deepseek" and the section's model. `raw` is present iff the request's top-level `raw` is literally `true`. |
| DeepSeek.SectionRawIgnored | src/providers/deepseek.ts:33 | The section's own `raw` flag never changes the result. |
| Mistral.BuildRequest | src/providers/mistral.ts:11-19 | A missing `mistral` section throws a TypeError while the request is built. Otherwise the chat body is sent. |
| Mistral.ResponseText | src/providers/mistral.ts:42 | The text is `choices[0].message.content` with no default. A null body throws. |
| Mistral.Mistral | src/providers/mistral.ts:4-49 | A missing section throws a TypeError. A body that is not JSON rejects. A non-ok response throws "Mistral error <status>: <serialised body>" with provider "Mistral". A success has the text under `text`, provider "mistral" and the section's model, and never a `raw`. |
| Mistral.NoChoicesNoText | src/providers/mistral.ts:42-48 | Every ok response whose body object has no `choices` gives an output whose text is undefined. |

## Left out

- HTTP (`fetch`), headers, URLs, API keys in headers, `res.body.getReader()`
  and the async-generator lifecycle are I/O. A response is modelled by what
  the adapter reads of it, and a stream by its decoded chunks.
- `TextDecoder` streaming UTF-8 decoding is a foreign call. The decoded
  chunks are the input.
- `JSON.parse` and `JSON.stringify` are foreign calls. They are parameters.
- Numbers (temperature, token limits) are carried as the text JavaScript
  would print for them and passed through unchanged. Floating point is not
  modelled.
- The `tokens: undefined` field of the OpenAI stream output is constant and
  not carried.
- Only values that come out of `JSON.parse` are converted with `String`.
  Such an object may have an own `toString` key, but its value is never a
  function. Converting that object throws a TypeError, and so does
  converting an array that holds one (`Js.Renders`). Every other object
  renders as "[object Object]".
- Only the properties the adapters read are modelled. Primitives and arrays
  have none of them (for example, `length` is never read).
- src/core/fallbackEngine.ts is a stub that logs and returns "". No
  candidate ordering or retry exists in the code, so none is modelled.
- src/client.ts only forwards to the legacy Gemini wrapper, and there is no
  dispatcher that routes a request to an adapter. src/index.ts is a demo
  script.
- src/providers/google-stream.ts passes every decoded chunk straight through
  with no framing. src/providers/google.ts and src/providers/openai.ts are
  one-expression legacy wrappers. None of them is part of this model.
- src/ has no dispatcher and no fallback that re-issues a failed request.
  It also has no error codes that reach the caller. The error kinds
  VALIDATION_ERROR, CONFIG_ERROR and API_ERROR appear
  only as a third argument, which the error class drops. None of these is
  modelled.
- google-core.ts, anthropic.ts and the three stream adapters throw an
  `SDKError` when their section is missing. deepseek.ts and mistral.ts have
  no such guard: they read the section's model while building the body and
  throw a TypeError, which is what the model does.
- MistralStream.Event: yields the content value whenever it is truthy, as
  the code does. A non-string content, such as a number, is yielded
  unconverted, even though the generator is declared to yield strings.
- Types.StatusMessage: `Js.Json` holds an object's fields in a map, which
  has no key order. `JSON.stringify` writes keys in the order the body was
  parsed, so two bodies that differ only in key order give different
  messages in the code. In the model they are one value and give one
  message. This also holds for the non-ok messages of Anthropic.Anthropic,
  DeepSeek.DeepSeek and Mistral.Mistral.
- Js.IsWhitespace: lists the code points `trim` removes, taken from the
  ECMAScript definitions of WhiteSpace and LineTerminator, rather than
  reading any Unicode table.

## Findings

| source | as written | input that shows it | evidently intended | confidence | as-written member | corrected member |
|---|---|---|---|---|---|---|
| src/providers/google-core.ts:37-40 | `new SDKError('google', 'API_ERROR', ...)`. The error class takes (message, provider) and drops the third argument (src/core/error.ts:4-7), so the error's message is "google", its provider is "API_ERROR", and the backend's message is lost. | Any non-ok response, e.g. status 429 with body `{"error": {"message": "quota"}}`: the error is message "google", provider "API_ERROR". | Provider "google" and message "Gemini error quota", i.e. "Gemini error " followed by the backend's message or "Gemini error". This is what the other adapters do. | not executed | GoogleCore.GoogleCoreAsWritten, GoogleCore.ErrorLosesBackendMessage | GoogleCore.GoogleCore, GoogleCore.ErrorKeepsBackendMessage |

=== FILE: anthropic.dfy ===
/** The Anthropic Messages adapter: the request it sends and how the
    response becomes an `Output`. */
module Anthropic {
  import opened Wrappers
  import opened Js
  import opened Types

  /** The token limit sent when the section gives none. */
  const DefaultMaxTokens: Number := Number("1024")

  /** The JSON body of the request: the model, `maxTokens ?? 1024`, the one
      user message and the temperature. */
  function Body(s: Section): Json {
    Obj(map[
      "model" := Str(s.model),
      "max_tokens" := Num(s.maxTokens.GetOr(DefaultMaxTokens)),
      "messages" := Arr([Message(s.prompt)]),
      "temperature" := OptNum(s.temperature)])
  }

  /** A token limit is always sent, 1024 when the section gives none; no
      system text is sent, so the body depends on the model, prompt,
      temperature and token limit only. */
  lemma BodySends(s: Section, t: Section)
    requires s.model == t.model && s.prompt == t.prompt
    requires s.temperature == t.temperature && s.maxTokens == t.maxTokens
    ensures Body(s) == Body(t)
    ensures Body(s).fields.Keys == {"model", "max_tokens", "messages", "temperature"}
    ensures s.maxTokens.None? ==> Body(s).fields["max_tokens"] == Num(Number("1024"))
    ensures s.maxTokens.Some? ==> Body(s).fields["max_tokens"] == Num(s.maxTokens.value)
  {
  }

  /** `x.content?.[0]?.text`, the first content block's text. */
  function FirstContentText(x: Json): Json {
    OptProp(OptAt0(OptProp(x, "content")), "text")
  }

  /** `data.content?.[0]?.text ?? data.output_text ??
      data.output?.[0]?.content?.map(c => c.text).join('') ?? ''`. Reading
      `content` of a `null` body throws, and so does the join when the
      content is not an array or holds a `null` part (`None`). */
  function ResponseText(data: Json): (r: Option<Json>)
    ensures data.IsNullish() ==> r.None?
    ensures !data.IsNullish() && !FirstContentText(data).IsNullish() ==> r == Some(FirstContentText(data))
    ensures !data.IsNullish() && FirstContentText(data).IsNullish() ==> r == OutputText(data, JoinedTextOf)
  {
    match Prop(data, "content")
    case None => None
    case Some(_) =>
      var first := FirstContentText(data);
      if !first.IsNullish() then Some(first) else OutputText(data, JoinedTextOf)
  }

  /** The text is the first of the three candidates that is present, and
      "" when none is. */
  lemma TextFallsBack(data: Json)
    requires !data.IsNullish()
    requires FirstContentText(data).IsNullish()
    requires OptProp(data, "output_text").IsNullish()
    requires OutputContent(data).IsNullish()
    ensures ResponseText(data) == Some(Str(""))
  {
  }

  /** `anthropicProvider`, for the request, the response and the body
      serialiser. */
  function Anthropic(req: Request, res: HttpResponse, stringify: Json -> string): (r: Result<Output, Exception>)
    ensures req.anthropic.None? ==> r == Err(Sdk(SdkError("anthropic provider config missing", "anthropic")))
    ensures req.anthropic.Some? && res.body.None? ==> r == Err(SyntaxError)
    ensures req.anthropic.Some? && res.body.Some? && !res.ok
            ==> r == Err(Sdk(SdkError(StatusMessage("Anthropic error ", res.status, stringify(res.body.value)), "anthropic")))
    ensures r.Ok? <==> req.anthropic.Some? && res.ok && res.body.Some? && ResponseText(res.body.value).Some?
    ensures r.Ok? ==> && r.value.field == Data && r.value.provider == "anthropic"
                      && r.value.model == req.anthropic.value.model
                      && r.value.text == ResponseText(res.body.value).value
                      && (r.value.raw.Some? <==> req.anthropic.value.raw == Some(true))
                      && (r.value.raw.Some? ==> r.value.raw.value == res.body.value)
    ensures r.Err? && r.error.Sdk? ==> r.error.error.provider == "anthropic"
  {
    match req.anthropic
    case None => Err(Sdk(SdkError("anthropic provider config missing", "anthropic")))
    case Some(s) =>
      match res.body
      case None => Err(SyntaxError)
      case Some(data) =>
        if !res.ok then
          Err(Sdk(SdkError(StatusMessage("Anthropic error ", res.status, stringify(data)), "anthropic")))
        else
          match ResponseText(data)
          case None => Err(TypeError)
          case Some(text) => Ok(Output(Data, text, "anthropic", s.model, RawWhen(s.raw, data)))
  }
}

=== FILE: deepseek.dfy ===
/** The DeepSeek chat adapter: the request it sends and how the response
    becomes an `Output`. The source has no guard for a missing `deepseek`
    section: building the request then throws a TypeError. */
module DeepSeek {
  import opened Wrappers
  import opened Js
  import opened Types

  /** The request body, or the TypeError thrown reading the model of a
      missing section. */
  function BuildRequest(req: Request): (r: Result<Json, Exception>)
    ensures req.deepseek.None? <==> r == Err(TypeError)
    ensures req.deepseek.Some? ==> r == Ok(ChatBody(req.deepseek.value))
  {
    match req.deepseek
    case None => Err(TypeError)
    case Some(s) => Ok(ChatBody(s))
  }

  /** `data.output_text ?? data.output?.[0]?.content?.map(c => c.text).join("") ?? ""`;
      reading `output_text` of a `null` body throws. */
  function ResponseText(data: Json): (r: Option<Json>)
    ensures data.IsNullish() ==> r.None?
    ensures !data.IsNullish() ==> r == OutputText(data, JoinedTextOf)
  {
    if data.IsNullish() then None else OutputText(data, JoinedTextOf)
  }

  /** `deepseekProvider`, for the request, the response and the body
      serialiser. The error's provider is "Deepseek", capitalised; the
      output's is "deepseek". */
  function DeepSeek(req: Request, res: HttpResponse, stringify: Json -> string): (r: Result<Output, Exception>)
    ensures req.deepseek.None? ==> r == Err(TypeError)
    ensures req.deepseek.Some? && res.body.None? ==> r == Err(SyntaxError)
    ensures req.deepseek.Some? && res.body.Some? && !res.ok
            ==> r == Err(Sdk(SdkError(StatusMessage("Deepseek error ", res.status, stringify(res.body.value)), "Deepseek")))
    ensures r.Ok? <==> req.deepseek.Some? && res.ok && res.body.Some? && ResponseText(res.body.value).Some?
    ensures r.Ok? ==> && r.value.field == Text && r.value.provider == "deepseek"
                      && r.value.model == req.deepseek.value.model
                      && r.value.text == ResponseText(res.body.value).value
                      && (r.value.raw.Some? <==> req.raw == Some(true))
                      && (r.value.raw.Some? ==> r.value.raw.value == res.body.value)
  {
    match BuildRequest(req)
    case Err(e) => Err(e)
    case Ok(_) =>
      var s := req.deepseek.value;
      match res.body
      case None => Err(SyntaxError)
      case Some(data) =>
        if !res.ok then
          Err(Sdk(SdkError(StatusMessage("Deepseek error ", res.status, stringify(data)), "Deepseek")))
        else
          match ResponseText(data)
          case None => Err(TypeError)
          case Some(text) => Ok(Output(Text, text, "deepseek", s.model, RawWhen(req.raw, data)))
  }

  /** The section's own `raw` flag is never read: only the request's
      top-level flag decides whether the body is copied. */
  lemma SectionRawIgnored(req: Request, res: HttpResponse, stringify: Json -> string, flag: Option<bool>)
    requires req.deepseek.Some?
    ensures DeepSeek(req.(deepseek := Some(req.deepseek.value.(raw := flag))), res, stringify)
            == DeepSeek(req, res, stringify)
  {
  }
}

=== FILE: deepseek_stream.dfy ===
/** The DeepSeek streaming adapter: the shell around the shared reader loop,
    which yields every parsed event as it is. */
module DeepSeekStream {
  import opened Wrappers
  import opened Js
  import opened Types
  import opened Framing

  /** One parsed event, yielded unchanged. */
  function Event(ev: Json): (r: Result<seq<Json>, Exception>)
    ensures r == Ok([ev])
  {
    Ok([ev])
  }

  lemma {:induction false} RunYieldsEvents(events: seq<Json>, tail: string)
    ensures RunEvents(events, tail, Event) == Reading(tail, events)
    decreases |events|
  {
    if |events| > 0 {
      RunYieldsEvents(events[1..], tail);
      assert [events[0]] + events[1..] == events;
    }
  }

  /** `deepseekStreamProvider`. */
  function DeepSeekStream(req: Request, res: StreamResponse, chunks: seq<string>,
                          parse: string -> Option<Json>): (d: Decoder<Json>)
    ensures req.deepseek.None? ==> d == Failed([], Sdk(SdkError("deepseek provider config missing", "deepseek")))
    ensures req.deepseek.Some? && (!res.ok || !res.hasBody)
            ==> d == Failed([], Raise(ErrorMessage(res.errorBody, "Deepseek streaming error " + NatToString(res.status)), "deepseek"))
  {
    Stream(req.deepseek.Some?, "deepseek", "deepseek provider config missing", "Deepseek streaming error ", res, chunks, parse, Event)
  }

  /** Once streaming, the stream never throws and yields exactly the parsed
      events of the complete lines, in order, whatever they hold; the
      unterminated tail is all it leaves. */
  lemma YieldsEveryEvent(req: Request, res: StreamResponse, chunks: seq<string>,
                         parse: string -> Option<Json>)
    requires req.deepseek.Some? && res.ok && res.hasBody
    ensures var s := Concat(chunks);
            DeepSeekStream(req, res, chunks, parse) == Reading(SplitLines(s).tail, Events(s, parse))
  {
    var s := Concat(chunks);
    StreamEvents(true, "deepseek", "deepseek provider config missing", "Deepseek streaming error ", res, chunks, parse, Event);
    RunYieldsEvents(Events(s, parse), SplitLines(s).tail);
  }

  lemma Rechunked(req: Request, res: StreamResponse, a: seq<string>, b: seq<string>,
                  parse: string -> Option<Json>)
    requires Concat(a) == Concat(b)
    ensures DeepSeekStream(req, res, a, parse) == DeepSeekStream(req, res, b, parse)
  {
    StreamRechunking(req.deepseek.Some?, "deepseek", "deepseek provider config missing", "Deepseek streaming error ", res, a, b, parse, Event);
  }
}

=== FILE: framing.dfy ===
/** The newline framing the three streaming adapters share. Each keeps a
    text buffer, appends every decoded chunk to it, and while the buffer
    holds a '\n' cuts off the first line, trims it, skips it when it is
    blank or does not parse as JSON, and otherwise hands the parsed event to
    a backend-specific mapping that yields zero or more outputs or throws.
    What is left after the last '\n' when the reader reports completion is
    never looked at.

    `Feed` states the effect of one chunk character by character; the
    reader loop as the adapters write it (`DecodeStream`, cutting at
    `indexOf('\n')`) is proved to compute the same thing, and `Decode`, the
    same result described through the complete lines of the whole text, is
    proved equal to feeding that text in any cutting into chunks. */
module Framing {
  import opened Wrappers
  import opened Js
  import opened Types

  // ---------------------------------------------------------------------------
  // Newlines
  // ---------------------------------------------------------------------------

  /** The text holds no '\n'. */
  predicate NoNewline(s: string) {
    forall j :: 0 <= j < |s| ==> s[j] != '\n'
  }

  /** `s.indexOf('\n')`: the first position of a newline, or -1. */
  function IndexOfNewline(s: string): (i: int)
    ensures -1 <= i < |s|
    ensures i == -1 <==> NoNewline(s)
    ensures 0 <= i ==> s[i] == '\n' && NoNewline(s[..i])
    decreases |s|
  {
    if |s| == 0 then -1
    else if s[0] == '\n' then 0
    else
      var j := IndexOfNewline(s[1..]);
      assert j >= 0 ==> s[..j + 1] == [s[0]] + s[1..][..j];
      if j == -1 then -1 else j + 1
  }

  // ---------------------------------------------------------------------------
  // The decoder and one character at a time
  // ---------------------------------------------------------------------------

  /** A decoder: still reading, with the unconsumed buffer and everything
      yielded so far, or stopped by an exception thrown after yielding
      `emitted`. */
  datatype Decoder<O> = Reading(buffer: string, emitted: seq<O>) | Failed(emitted: seq<O>, error: Exception)

  /** The decoder before the first chunk. */
  function Start<O>(): Decoder<O> {
    Reading("", [])
  }

  /** One complete line: trimmed, skipped when blank or when `parse`
      rejects it, otherwise handed to `emit`. */
  function LineStep<O>(line: string, parse: string -> Option<Json>,
                       emit: Json -> Result<seq<O>, Exception>): (r: Result<seq<O>, Exception>)
    ensures !HasVisible(line) ==> r == Ok([])
    ensures HasVisible(line) && parse(Trim(line)).None? ==> r == Ok([])
    ensures HasVisible(line) && parse(Trim(line)).Some? ==> r == emit(parse(Trim(line)).value)
  {
    var t := Trim(line);
    if t == "" then Ok([])
    else
      match parse(t)
      case None => Ok([])
      case Some(ev) => emit(ev)
  }

  /** The decoder once the line held in the buffer is ended by a '\n'. */
  function EndLine<O>(buffer: string, emitted: seq<O>, parse: string -> Option<Json>,
                      emit: Json -> Result<seq<O>, Exception>): Decoder<O>
  {
    match LineStep(buffer, parse, emit)
    case Err(e) => Failed(emitted, e)
    case Ok(outs) => Reading("", emitted + outs)
  }

  /** One character: a '\n' ends the buffered line, anything else joins it.
      A failed decoder has stopped and reads nothing. */
  function Scan<O>(d: Decoder<O>, c: char, parse: string -> Option<Json>,
                   emit: Json -> Result<seq<O>, Exception>): Decoder<O>
  {
    match d
    case Failed(_, _) => d
    case Reading(buffer, emitted) =>
      if c == '\n' then EndLine(buffer, emitted, parse, emit)
      else Reading(buffer + [c], emitted)
  }

  /** One `reader.read()` that is not `done`: the chunk's characters, in
      order. */
  function Feed<O>(d: Decoder<O>, chunk: string, parse: string -> Option<Json>,
                   emit: Json -> Result<seq<O>, Exception>): Decoder<O>
    decreases |chunk|
  {
    if |chunk| == 0 then d else Feed(Scan(d, chunk[0], parse, emit), chunk[1..], parse, emit)
  }

  /** Reading a chunk never takes back an output, and a failed decoder
      stays as it is. */
  lemma {:induction false} FeedGrows<O>(d: Decoder<O>, chunk: string, parse: string -> Option<Json>,
                                        emit: Json -> Result<seq<O>, Exception>)
    ensures d.Failed? ==> Feed(d, chunk, parse, emit) == d
    ensures d.emitted <= Feed(d, chunk, parse, emit).emitted
    ensures d.Reading? && NoNewline(d.buffer) && Feed(d, chunk, parse, emit).Reading?
            ==> NoNewline(Feed(d, chunk, parse, emit).buffer)
    decreases |chunk|
  {
    if |chunk| > 0 {
      var d1 := Scan(d, chunk[0], parse, emit);
      if d.Reading? && NoNewline(d.buffer) && d1.Reading? && chunk[0] != '\n' {
        assert d1.buffer == d.buffer + [chunk[0]];
        assert NoNewline(d1.buffer) by {
          forall j | 0 <= j < |d1.buffer| ensures d1.buffer[j] != '\n' {
            if j < |d.buffer| {
              assert d1.buffer[j] == d.buffer[j];
            }
          }
        }
      }
      FeedGrows(d1, chunk[1..], parse, emit);
      assert d.emitted <= d1.emitted;
    }
  }

  /** Reading `s` and then `t` leaves the decoder reading `s + t` at once
      leaves, from any state. */
  lemma {:induction false} FeedSplit<O>(d: Decoder<O>, s: string, t: string, parse: string -> Option<Json>,
                                        emit: Json -> Result<seq<O>, Exception>)
    ensures Feed(d, s + t, parse, emit) == Feed(Feed(d, s, parse, emit), t, parse, emit)
    decreases |s|
  {
    if |s| == 0 {
      assert s + t == t;
    } else {
      assert (s + t)[0] == s[0];
      assert (s + t)[1..] == s[1..] + t;
      FeedSplit(Scan(d, s[0], parse, emit), s[1..], t, parse, emit);
    }
  }

  /** Text without a newline only joins the buffer. */
  lemma {:induction false} FeedNoNewline<O>(buffer: string, emitted: seq<O>, s: string,
                                            parse: string -> Option<Json>,
                                            emit: Json -> Result<seq<O>, Exception>)
    requires NoNewline(s)
    ensures Feed(Reading(buffer, emitted), s, parse, emit) == Reading(buffer + s, emitted)
    decreases |s|
  {
    if |s| == 0 {
      assert buffer + s == buffer;
    } else {
      assert s[0] != '\n';
      assert NoNewline(s[1..]) by {
        forall j | 0 <= j < |s[1..]| ensures s[1..][j] != '\n' {
          assert s[1..][j] == s[j + 1];
        }
      }
      FeedNoNewline(buffer + [s[0]], emitted, s[1..], parse, emit);
      assert buffer + [s[0]] + s[1..] == buffer + s;
    }
  }

  /** Feeding a buffer whose first '\n' is at `i`: the line before it is
      ended, and the rest after it is read from an empty buffer. */
  lemma FeedFirstLine<O>(s: string, i: int, emitted: seq<O>, parse: string -> Option<Json>,
                         emit: Json -> Result<seq<O>, Exception>)
    requires 0 <= i && i == IndexOfNewline(s)
    ensures Feed(Reading("", emitted), s, parse, emit)
            == Feed(EndLine(s[..i], emitted, parse, emit), s[i + 1..], parse, emit)
  {
    assert s == s[..i] + (s[i..i + 1] + s[i + 1..]);
    FeedSplit(Reading("", emitted), s[..i], s[i..i + 1] + s[i + 1..], parse, emit);
    FeedNoNewline("", emitted, s[..i], parse, emit);
    assert "" + s[..i] == s[..i];
    FeedSplit(Reading(s[..i], emitted), s[i..i + 1], s[i + 1..], parse, emit);
    assert s[i..i + 1][0] == '\n';
    assert s[i..i + 1][1..] == "";
  }

  // ---------------------------------------------------------------------------
  // Many chunks
  // ---------------------------------------------------------------------------

  /** The reader loop over all chunks, in order. */
  function FeedAll<O>(d: Decoder<O>, chunks: seq<string>, parse: string -> Option<Json>,
                      emit: Json -> Result<seq<O>, Exception>): Decoder<O>
    decreases |chunks|
  {
    if |chunks| == 0 then d
    else FeedAll(Feed(d, chunks[0], parse, emit), chunks[1..], parse, emit)
  }

  /** All chunks joined. */
  function Concat(chunks: seq<string>): string
    decreases |chunks|
  {
    if |chunks| == 0 then "" else chunks[0] + Concat(chunks[1..])
  }

  lemma {:induction false} ConcatAppend(a: seq<string>, b: seq<string>)
    ensures Concat(a + b) == Concat(a) + Concat(b)
    decreases |a|
  {
    if |a| == 0 {
      assert a + b == b;
    } else {
      assert (a + b)[1..] == a[1..] + b;
      ConcatAppend(a[1..], b);
      assert a[0] + (Concat(a[1..]) + Concat(b)) == (a[0] + Concat(a[1..])) + Concat(b);
    }
  }

  /** Reading the chunks one after another is reading their concatenation. */
  lemma {:induction false} FeedAllIsFeed<O>(d: Decoder<O>, chunks: seq<string>,
                                            parse: string -> Option<Json>,
                                            emit: Json -> Result<seq<O>, Exception>)
    ensures FeedAll(d, chunks, parse, emit) == Feed(d, Concat(chunks), parse, emit)
    decreases |chunks|
  {
    if |chunks| > 0 {
      FeedAllIsFeed(Feed(d, chunks[0], parse, emit), chunks[1..], parse, emit);
      FeedSplit(d, chunks[0], Concat(chunks[1..]), parse, emit);
    }
  }

  /** Any two ways of cutting the same text into chunks read alike: the
      outputs, the exception and the leftover buffer depend on the text
      alone. */
  lemma Rechunking<O>(a: seq<string>, b: seq<string>, parse: string -> Option<Json>,
                      emit: Json -> Result<seq<O>, Exception>)
    requires Concat(a) == Concat(b)
    ensures FeedAll(Start(), a, parse, emit) == FeedAll(Start(), b, parse, emit)
  {
    FeedAllIsFeed(Start(), a, parse, emit);
    FeedAllIsFeed(Start(), b, parse, emit);
  }

  /** Text after the last '\n' yields nothing: it only ever sits in the
      buffer, and it is dropped when the reader reports completion. */
  lemma UnterminatedTailIgnored<O>(chunks: seq<string>, t: string, parse: string -> Option<Json>,
                                   emit: Json -> Result<seq<O>, Exception>)
    requires NoNewline(t)
    ensures var d := FeedAll(Start(), chunks, parse, emit);
            var e := FeedAll(Start(), chunks + [t], parse, emit);
            && e.emitted == d.emitted
            && e.Failed? == d.Failed?
            && (d.Failed? ==> e == d)
            && (d.Reading? ==> e.buffer == d.buffer + t)
  {
    FeedAllIsFeed(Start(), chunks, parse, emit);
    FeedAllIsFeed(Start(), chunks + [t], parse, emit);
    ConcatAppend(chunks, [t]);
    assert Concat([t]) == t + Concat([]);
    assert t + "" == t;
    var d := Feed(Start(), Concat(chunks), parse, emit);
    FeedSplit(Start(), Concat(chunks), t, parse, emit);
    match d
    case Failed(_, _) =>
      FeedGrows(d, t, parse, emit);
    case Reading(buffer, emitted) =>
      FeedNoNewline(buffer, emitted, t, parse, emit);
  }

  // ---------------------------------------------------------------------------
  // The same result through the lines of the whole text
  // ---------------------------------------------------------------------------

  /** The complete lines of a text and the unterminated text after them. */
  datatype Lines = Lines(complete: seq<string>, tail: string)

  /** No piece of `ls` holds a newline. */
  predicate Framed(ls: Lines) {
    && (forall k :: 0 <= k < |ls.complete| ==> NoNewline(ls.complete[k]))
    && NoNewline(ls.tail)
  }

  /** Each line followed by its '\n'. */
  function Unlines(lines: seq<string>): string
    decreases |lines|
  {
    if |lines| == 0 then "" else lines[0] + "\n" + Unlines(lines[1..])
  }

  lemma {:induction false} UnlinesAppend(a: seq<string>, b: seq<string>)
    ensures Unlines(a + b) == Unlines(a) + Unlines(b)
    decreases |a|
  {
    if |a| == 0 {
      assert a + b == b;
    } else {
      assert (a + b)[0] == a[0];
      assert (a + b)[1..] == a[1..] + b;
      UnlinesAppend(a[1..], b);
    }
  }

  /** A '\n' closes the current line; any other character extends it. */
  function CutStep(ls: Lines, c: char): Lines {
    if c == '\n' then Lines(ls.complete + [ls.tail], "") else Lines(ls.complete, ls.tail + [c])
  }

  function CutFrom(ls: Lines, s: string): Lines
    decreases |s|
  {
    if |s| == 0 then ls else CutFrom(CutStep(ls, s[0]), s[1..])
  }

  /** The text cut at every '\n', each '\n' dropped. */
  function SplitLines(s: string): Lines {
    CutFrom(Lines([], ""), s)
  }

  lemma {:induction false} CutFromJoin(ls: Lines, s: string)
    ensures Unlines(CutFrom(ls, s).complete) + CutFrom(ls, s).tail == Unlines(ls.complete) + ls.tail + s
    ensures Framed(ls) ==> Framed(CutFrom(ls, s))
    decreases |s|
  {
    if |s| == 0 {
      assert Unlines(ls.complete) + ls.tail + s == Unlines(ls.complete) + ls.tail;
    } else {
      var next := CutStep(ls, s[0]);
      CutFromJoin(next, s[1..]);
      assert s == [s[0]] + s[1..];
      if s[0] == '\n' {
        UnlinesAppend(ls.complete, [ls.tail]);
        assert Unlines([ls.tail]) == ls.tail + "\n" + Unlines([]);
        assert Unlines(next.complete) + next.tail == Unlines(ls.complete) + ls.tail + [s[0]];
        if Framed(ls) {
          forall k | 0 <= k < |next.complete| ensures NoNewline(next.complete[k]) {
            if k < |ls.complete| {
              assert next.complete[k] == ls.complete[k];
            }
          }
        }
      } else {
        assert Unlines(next.complete) + next.tail == Unlines(ls.complete) + ls.tail + [s[0]];
        if Framed(ls) {
          assert NoNewline(next.tail) by {
            forall j | 0 <= j < |next.tail| ensures next.tail[j] != '\n' {
              if j < |ls.tail| {
                assert next.tail[j] == ls.tail[j];
              }
            }
          }
        }
      }
    }
  }

  /** Cutting loses nothing: joining the lines back, each with its '\n',
      and appending the tail gives the text; and no piece holds a '\n'. */
  lemma SplitLinesJoin(s: string)
    ensures Unlines(SplitLines(s).complete) + SplitLines(s).tail == s
    ensures Framed(SplitLines(s))
  {
    CutFromJoin(Lines([], ""), s);
    assert Unlines([]) + "" + s == s;
  }

  /** Runs the complete lines in order, stopping at the first throw; when
      none throws the decoder is left reading `tail`. */
  function RunLines<O>(lines: seq<string>, tail: string, parse: string -> Option<Json>,
                       emit: Json -> Result<seq<O>, Exception>): (d: Decoder<O>)
    ensures d.Reading? ==> d.buffer == tail
    decreases |lines|
  {
    if |lines| == 0 then Reading(tail, [])
    else
      match LineStep(lines[0], parse, emit)
      case Err(e) => Failed([], e)
      case Ok(outs) => Prepend(outs, RunLines(lines[1..], tail, parse, emit))
  }

  /** Puts `outs` in front of what `d` yielded. */
  function Prepend<O>(outs: seq<O>, d: Decoder<O>): (r: Decoder<O>)
    ensures r.Reading? == d.Reading? && r.emitted == outs + d.emitted
  {
    match d
    case Reading(buffer, emitted) => Reading(buffer, outs + emitted)
    case Failed(emitted, error) => Failed(outs + emitted, error)
  }

  /** What reading the whole text `s` gives, told through its lines: the
      complete lines run in order, the unterminated tail left as the
      buffer. */
  function Decode<O>(s: string, parse: string -> Option<Json>,
                     emit: Json -> Result<seq<O>, Exception>): Decoder<O>
  {
    var ls := SplitLines(s);
    RunLines(ls.complete, ls.tail, parse, emit)
  }

  lemma ScanPrepend<O>(outs: seq<O>, d: Decoder<O>, c: char, parse: string -> Option<Json>,
                       emit: Json -> Result<seq<O>, Exception>)
    ensures Scan(Prepend(outs, d), c, parse, emit) == Prepend(outs, Scan(d, c, parse, emit))
  {
    match d
    case Failed(_, _) =>
    case Reading(buffer, em) =>
      if c == '\n' {
        match LineStep(buffer, parse, emit)
        case Err(e) =>
        case Ok(o) =>
          assert (outs + em) + o == outs + (em + o);
      }
  }

  /** One character read after the lines `C` and the partial line `T` is
      the same as cutting it into the lines first. */
  lemma {:induction false} ScanRunLines<O>(C: seq<string>, T: string, c: char,
                                           parse: string -> Option<Json>,
                                           emit: Json -> Result<seq<O>, Exception>)
    ensures var ls := CutStep(Lines(C, T), c);
            Scan(RunLines(C, T, parse, emit), c, parse, emit) == RunLines(ls.complete, ls.tail, parse, emit)
    decreases |C|
  {
    var ls := CutStep(Lines(C, T), c);
    if |C| == 0 {
      if c == '\n' {
        assert ls.complete == [T];
        match LineStep(T, parse, emit)
        case Err(e) =>
        case Ok(o) =>
          assert [] + o == o + [];
      }
    } else {
      assert ls.complete[0] == C[0];
      assert ls.complete[1..] == CutStep(Lines(C[1..], T), c).complete;
      match LineStep(C[0], parse, emit)
      case Err(e) =>
      case Ok(o) =>
        ScanRunLines(C[1..], T, c, parse, emit);
        ScanPrepend(o, RunLines(C[1..], T, parse, emit), c, parse, emit);
    }
  }

  lemma {:induction false} FeedRunLines<O>(ls: Lines, s: string, parse: string -> Option<Json>,
                                           emit: Json -> Result<seq<O>, Exception>)
    ensures var r := CutFrom(ls, s);
            Feed(RunLines(ls.complete, ls.tail, parse, emit), s, parse, emit)
            == RunLines(r.complete, r.tail, parse, emit)
    decreases |s|
  {
    if |s| > 0 {
      ScanRunLines(ls.complete, ls.tail, s[0], parse, emit);
      FeedRunLines(CutStep(ls, s[0]), s[1..], parse, emit);
    }
  }

  /** Reading a text from the start is running its complete lines. */
  lemma FeedIsDecode<O>(s: string, parse: string -> Option<Json>,
                        emit: Json -> Result<seq<O>, Exception>)
    ensures Feed(Start(), s, parse, emit) == Decode(s, parse, emit)
  {
    FeedRunLines(Lines([], ""), s, parse, emit);
  }

  /** The reader loop over any chunks computes `Decode` of their
      concatenation. */
  lemma StreamIsDecode<O>(chunks: seq<string>, parse: string -> Option<Json>,
                          emit: Json -> Result<seq<O>, Exception>)
    ensures FeedAll(Start(), chunks, parse, emit) == Decode(Concat(chunks), parse, emit)
  {
    FeedAllIsFeed(Start(), chunks, parse, emit);
    FeedIsDecode(Concat(chunks), parse, emit);
  }

  // ---------------------------------------------------------------------------
  // The events the lines carry
  // ---------------------------------------------------------------------------

  /** The events carried by the non-blank lines that parse, in line order. */
  function ParsedEvents(lines: seq<string>, parse: string -> Option<Json>): seq<Json>
    decreases |lines|
  {
    if |lines| == 0 then []
    else
      var t := Trim(lines[0]);
      var rest := ParsedEvents(lines[1..], parse);
      if t == "" then rest
      else
        match parse(t)
        case None => rest
        case Some(ev) => [ev] + rest
  }

  /** The events in the complete lines of `s`. */
  function Events(s: string, parse: string -> Option<Json>): seq<Json> {
    ParsedEvents(SplitLines(s).complete, parse)
  }

  /** Hands each event to `emit` in order, stopping at the first throw. */
  function RunEvents<O>(events: seq<Json>, tail: string,
                        emit: Json -> Result<seq<O>, Exception>): Decoder<O>
    decreases |events|
  {
    if |events| == 0 then Reading(tail, [])
    else
      match emit(events[0])
      case Err(e) => Failed([], e)
      case Ok(outs) => Prepend(outs, RunEvents(events[1..], tail, emit))
  }

  /** Blank and unparseable lines contribute nothing: running the lines is
      running the events they carry. */
  lemma {:induction false} RunLinesIsRunEvents<O>(lines: seq<string>, tail: string,
                                                  parse: string -> Option<Json>,
                                                  emit: Json -> Result<seq<O>, Exception>)
    ensures RunLines(lines, tail, parse, emit) == RunEvents(ParsedEvents(lines, parse), tail, emit)
    decreases |lines|
  {
    if |lines| > 0 {
      RunLinesIsRunEvents(lines[1..], tail, parse, emit);
      var t := Trim(lines[0]);
      if t != "" && parse(t).Some? {
        assert ParsedEvents(lines, parse)[1..] == ParsedEvents(lines[1..], parse);
      }
    }
  }

  /** A stream read in any chunks hands `emit` exactly the events of the
      complete lines of the whole text, in order. */
  lemma StreamIsRunEvents<O>(chunks: seq<string>, parse: string -> Option<Json>,
                             emit: Json -> Result<seq<O>, Exception>)
    ensures var s := Concat(chunks);
            FeedAll(Start(), chunks, parse, emit) == RunEvents(Events(s, parse), SplitLines(s).tail, emit)
  {
    var s := Concat(chunks);
    StreamIsDecode(chunks, parse, emit);
    RunLinesIsRunEvents(SplitLines(s).complete, SplitLines(s).tail, parse, emit);
  }

  /** When every event yields exactly one output that carries the event,
      a run that does not throw yields one output per event, in order. */
  lemma {:induction false} OnePerEvent<O>(events: seq<Json>, tail: string,
                                          emit: Json -> Result<seq<O>, Exception>, carried: O -> Json)
    requires forall ev :: emit(ev).Ok? ==> |emit(ev).value| == 1 && carried(emit(ev).value[0]) == ev
    ensures var d := RunEvents(events, tail, emit);
            d.Reading? ==> && |d.emitted| == |events|
                           && forall i :: 0 <= i < |events| ==> carried(d.emitted[i]) == events[i]
    decreases |events|
  {
    if |events| > 0 {
      OnePerEvent(events[1..], tail, emit, carried);
    }
  }

  // ---------------------------------------------------------------------------
  // The reader loop as written
  // ---------------------------------------------------------------------------

  /** Where the adapters' loop takes up a new chunk: the text read so far
      has left `buffer` and `emitted`, so reading up to and including chunk
      `k` is reading the buffer with the chunk appended. */
  lemma NextChunk<O>(chunks: seq<string>, k: nat, buffer: string, emitted: seq<O>,
                     parse: string -> Option<Json>, emit: Json -> Result<seq<O>, Exception>)
    requires k < |chunks| && NoNewline(buffer)
    requires Feed(Start(), Concat(chunks[..k]), parse, emit) == Reading(buffer, emitted)
    ensures Feed(Reading("", emitted), buffer + chunks[k], parse, emit)
            == Feed(Start(), Concat(chunks[..k + 1]), parse, emit)
  {
    assert chunks[..k + 1] == chunks[..k] + [chunks[k]];
    ConcatAppend(chunks[..k], [chunks[k]]);
    assert Concat([chunks[k]]) == chunks[k] + Concat([]);
    assert chunks[k] + "" == chunks[k];
    FeedSplit(Start(), Concat(chunks[..k]), chunks[k], parse, emit);
    FeedNoNewline("", emitted, buffer, parse, emit);
    assert "" + buffer == buffer;
    FeedSplit(Reading("", emitted), buffer, chunks[k], parse, emit);
  }

  /** A throw while reading chunk `k` is where the whole stream ends. */
  lemma FailedStays<O>(chunks: seq<string>, k: nat, emitted: seq<O>, e: Exception,
                       parse: string -> Option<Json>, emit: Json -> Result<seq<O>, Exception>)
    requires k < |chunks|
    requires Feed(Start(), Concat(chunks[..k + 1]), parse, emit) == Failed(emitted, e)
    ensures FeedAll(Start(), chunks, parse, emit) == Failed(emitted, e)
  {
    assert chunks == chunks[..k + 1] + chunks[k + 1..];
    ConcatAppend(chunks[..k + 1], chunks[k + 1..]);
    FeedSplit(Start(), Concat(chunks[..k + 1]), Concat(chunks[k + 1..]), parse, emit);
    FeedGrows(Failed(emitted, e), Concat(chunks[k + 1..]), parse, emit);
    FeedAllIsFeed(Start(), chunks, parse, emit);
  }

  /** The adapters' loop: for each chunk, append it to the buffer, then,
      while the buffer holds a '\n', cut off the first line, trim it, skip
      it when blank or unparseable, and yield what `emit` gives for it. A
      throw from `emit` ends the stream. */
  method DecodeStream<O>(chunks: seq<string>, parse: string -> Option<Json>,
                         emit: Json -> Result<seq<O>, Exception>) returns (d: Decoder<O>)
    ensures d == FeedAll(Start(), chunks, parse, emit)
  {
    FeedAllIsFeed(Start(), chunks, parse, emit);
    var buffer := "";
    var emitted: seq<O> := [];
    var k := 0;
    while k < |chunks|
      invariant 0 <= k <= |chunks|
      invariant Feed(Start(), Concat(chunks[..k]), parse, emit) == Reading(buffer, emitted)
      invariant NoNewline(buffer)
    {
      ghost var target := Feed(Start(), Concat(chunks[..k + 1]), parse, emit);
      NextChunk(chunks, k, buffer, emitted, parse, emit);
      buffer := buffer + chunks[k];
      var i := IndexOfNewline(buffer);
      while i != -1
        invariant i == IndexOfNewline(buffer)
        invariant Feed(Reading("", emitted), buffer, parse, emit) == target
        decreases |buffer|
      {
        FeedFirstLine(buffer, i, emitted, parse, emit);
        assert emitted + [] == emitted;
        var line := Trim(buffer[..i]);
        buffer := buffer[i + 1..];
        if line != "" {
          match parse(line)
          case None =>
          case Some(event) =>
            match emit(event)
            case Err(e) =>
              FeedGrows(Failed(emitted, e), buffer, parse, emit);
              FailedStays(chunks, k, emitted, e, parse, emit);
              return Failed(emitted, e);
            case Ok(outs) =>
              emitted := emitted + outs;
        }
        i := IndexOfNewline(buffer);
      }
      FeedNoNewline("", emitted, buffer, parse, emit);
      k := k + 1;
    }
    assert chunks[..k] == chunks;
    d := Reading(buffer, emitted);
  }

  /** After every chunk the buffer holds no '\n': each complete line has
      been cut off and handled. */
  lemma {:induction false} FeedAllBuffer<O>(d: Decoder<O>, chunks: seq<string>, parse: string -> Option<Json>,
                                            emit: Json -> Result<seq<O>, Exception>)
    requires d.Reading? ==> NoNewline(d.buffer)
    ensures var r := FeedAll(d, chunks, parse, emit);
            r.Reading? ==> NoNewline(r.buffer)
    decreases |chunks|
  {
    if |chunks| > 0 {
      FeedGrows(d, chunks[0], parse, emit);
      FeedAllBuffer(Feed(d, chunks[0], parse, emit), chunks[1..], parse, emit);
    }
  }

  /** A run stops exactly when some event's mapping throws, and then with
      the exception of the first such event. */
  lemma {:induction false} RunEventsFails<O>(events: seq<Json>, tail: string,
                                             emit: Json -> Result<seq<O>, Exception>)
    ensures var d := RunEvents(events, tail, emit);
            && (d.Failed? <==> exists i :: 0 <= i < |events| && emit(events[i]).Err?)
            && (d.Failed? ==> exists i :: && 0 <= i < |events| && emit(events[i]).Err?
                                          && d.error == emit(events[i]).error
                                          && forall j :: 0 <= j < i ==> emit(events[j]).Ok?)
    decreases |events|
  {
    if |events| > 0 {
      RunEventsFails(events[1..], tail, emit);
      var d := RunEvents(events, tail, emit);
      if emit(events[0]).Ok? {
        if d.Failed? {
          var i :| && 0 <= i < |events[1..]| && emit(events[1..][i]).Err?
                   && RunEvents(events[1..], tail, emit).error == emit(events[1..][i]).error
                   && forall j :: 0 <= j < i ==> emit(events[1..][j]).Ok?;
          assert emit(events[i + 1]).Err?;
          forall j | 0 <= j < i + 1 ensures emit(events[j]).Ok? {
            if j > 0 {
              assert events[j] == events[1..][j - 1];
            }
          }
        } else {
          forall i | 0 <= i < |events| ensures emit(events[i]).Ok? {
            if i > 0 {
              assert events[i] == events[1..][i - 1];
            }
          }
        }
      }
    }
  }

  // ---------------------------------------------------------------------------
  // The shell around the loop
  // ---------------------------------------------------------------------------

  /** `errJson?.error?.message ?? fallback` as the message of the error
      thrown before streaming; an `errorBody` of `None` is a body that is
      not JSON, whose parse failure is swallowed. A message that is not a
      string is converted by the `Error` constructor, and the result is
      `None` when that conversion throws. */
  function ErrorMessage(errorBody: Option<Json>, fallback: string): (m: Option<string>)
    ensures errorBody.None? ==> m == Some(fallback)
    ensures errorBody.Some? && ErrorField(errorBody.value).IsNullish() ==> m == Some(fallback)
    ensures errorBody.Some? && !ErrorField(errorBody.value).IsNullish()
            ==> (m.None? <==> !Renders(ErrorField(errorBody.value)))
    ensures errorBody.Some? && ErrorField(errorBody.value).Str? ==> m == Some(ErrorField(errorBody.value).s)
    ensures errorBody.Some? && ErrorField(errorBody.value).Num? ==> m == Some(ErrorField(errorBody.value).n.repr)
    ensures errorBody.Some? && ErrorField(errorBody.value).Bool?
            ==> m == Some(if ErrorField(errorBody.value).b then "true" else "false")
    ensures errorBody.Some? && ErrorField(errorBody.value).Obj? && m.Some? ==> m.value == "[object Object]"
    ensures errorBody.Some? && ErrorField(errorBody.value).Arr? ==> m == ToStr(ErrorField(errorBody.value))
  {
    match errorBody
    case None => Some(fallback)
    case Some(j) =>
      var msg := ErrorField(j);
      if msg.IsNullish() then Some(fallback) else ToStr(msg)
  }

  /** A streaming adapter: without its request section it throws
      `missing`; on a response that is not ok or has no body it throws with
      the body's error message or `<prefix><status>`; otherwise it runs the
      reader loop over the chunks. Every error carries the backend's
      `name`. The result is what the generator yields, and the exception it
      ends with, if any. */
  function Stream<O>(present: bool, name: string, missing: string, prefix: string, res: StreamResponse,
                     chunks: seq<string>, parse: string -> Option<Json>,
                     emit: Json -> Result<seq<O>, Exception>): (d: Decoder<O>)
    ensures !present ==> d == Failed([], Sdk(SdkError(missing, name)))
    ensures present && (!res.ok || !res.hasBody)
            ==> d == Failed([], Raise(ErrorMessage(res.errorBody, prefix + NatToString(res.status)), name))
    ensures present && (!res.ok || !res.hasBody) && d.error != TypeError
            ==> d.error.Sdk? && d.error.error.provider == name
  {
    if !present then Failed([], Sdk(SdkError(missing, name)))
    else if !res.ok || !res.hasBody then
      Failed([], Raise(ErrorMessage(res.errorBody, prefix + NatToString(res.status)), name))
    else FeedAll(Start(), chunks, parse, emit)
  }

  /** A stream that got past the shell yields, and throws, exactly what
      running the events of the complete lines of the whole text gives,
      however the text was cut into chunks; what it leaves unread holds no
      '\n'. */
  lemma StreamEvents<O>(present: bool, name: string, missing: string, prefix: string, res: StreamResponse,
                        chunks: seq<string>, parse: string -> Option<Json>,
                        emit: Json -> Result<seq<O>, Exception>)
    requires present && res.ok && res.hasBody
    ensures var s := Concat(chunks);
            var d := Stream(present, name, missing, prefix, res, chunks, parse, emit);
            && d == RunEvents(Events(s, parse), SplitLines(s).tail, emit)
            && (d.Reading? ==> NoNewline(d.buffer))
  {
    StreamIsRunEvents(chunks, parse, emit);
    FeedAllBuffer(Start(), chunks, parse, emit);
  }

  /** Where the chunk boundaries fall never changes a stream's result. */
  lemma StreamRechunking<O>(present: bool, name: string, missing: string, prefix: string, res: StreamResponse,
                            a: seq<string>, b: seq<string>, parse: string -> Option<Json>,
                            emit: Json -> Result<seq<O>, Exception>)
    requires Concat(a) == Concat(b)
    ensures Stream(present, name, missing, prefix, res, a, parse, emit) == Stream(present, name, missing, prefix, res, b, parse, emit)
  {
    Rechunking(a, b, parse, emit);
  }
}

=== FILE: google_core.dfy ===
/** The Gemini adapter: the `generateContent` request it sends and how the
    response becomes an `Output`.

    On a non-ok response the source builds its error with three arguments
    in the order (provider, code, message), but the error class keeps only
    (message, provider): the thrown error's message is "google" and its
    provider "API_ERROR", and the backend's own message is lost.
    `GoogleCoreAsWritten` is that behaviour; `GoogleCore` is the adapter
    with the error the call evidently means. */
module GoogleCore {
  import opened Wrappers
  import opened Js
  import opened Types

  /** The JSON body of the request: one content with one part holding the
      system text and prompt, and the sampling settings under
      `generationConfig`. */
  function Body(s: Section): Json {
    Obj(map[
      "contents" := Arr([Obj(map["parts" := Arr([Obj(map["text" := Str(PromptText(s))])])])]),
      "generationConfig" := Obj(map[
        "temperature" := OptNum(s.temperature),
        "maxOutputTokens" := OptNum(s.maxTokens)])])
  }

  /** The part's text is the system text and prompt, and temperature and
      token limit reach the backend unchanged. */
  lemma BodySends(s: Section)
    ensures Body(s).fields.Keys == {"contents", "generationConfig"}
    ensures OptProp(OptAt0(OptProp(OptAt0(OptProp(Body(s), "contents")), "parts")), "text") == Str(PromptText(s))
    ensures OptProp(OptProp(Body(s), "generationConfig"), "temperature") == OptNum(s.temperature)
    ensures OptProp(OptProp(Body(s), "generationConfig"), "maxOutputTokens") == OptNum(s.maxTokens)
  {
  }

  /** `x.candidates?.[0]?.content?.parts?.[0]?.text`, the first
      candidate's first part. */
  function CandidateText(x: Json): Json {
    OptProp(OptAt0(OptProp(OptProp(OptAt0(OptProp(x, "candidates")), "content"), "parts")), "text")
  }

  /** `rawData.candidates?.[0]?.content?.parts?.[0]?.text ?? ''`; reading
      `candidates` of a `null` body throws (`None`). */
  function ResponseText(body: Json): (r: Option<Json>)
    ensures r.None? <==> body.IsNullish()
    ensures r.Some? ==> !r.value.IsNullish()
    ensures r.Some? && !CandidateText(body).IsNullish() ==> r.value == CandidateText(body)
    ensures r.Some? && CandidateText(body).IsNullish() ==> r.value == Str("")
  {
    match Prop(body, "candidates")
    case None => None
    case Some(_) => Some(Coalesce(CandidateText(body), Str("")))
  }

  /** The output for an ok response. */
  function Success(s: Section, body: Json): Result<Output, Exception> {
    match ResponseText(body)
    case None => Err(TypeError)
    case Some(data) => Ok(Output(Data, data, "google", s.model, RawWhen(s.raw, body)))
  }

  /** `googleCoreProvider` as written: a non-ok response throws the error
      with message "google" and provider "API_ERROR". */
  function GoogleCoreAsWritten(req: Request, res: HttpResponse): (r: Result<Output, Exception>)
    ensures req.google.None? ==> r == Err(Sdk(SdkError("google provider config missing", "google")))
    ensures req.google.Some? && res.body.None? ==> r == Err(SyntaxError)
    ensures req.google.Some? && res.body.Some? && !res.ok && BackendMessage(res.body.value).Some?
            ==> r == Err(Sdk(SdkError("google", "API_ERROR")))
    ensures req.google.Some? && res.body.Some? && !res.ok && BackendMessage(res.body.value).None?
            ==> r == Err(TypeError)
    ensures req.google.Some? && res.body.Some? && res.ok ==> r == Success(req.google.value, res.body.value)
  {
    match req.google
    case None => Err(Sdk(SdkError("google provider config missing", "google")))
    case Some(s) =>
      match res.body
      case None => Err(SyntaxError)
      case Some(body) =>
        if !res.ok then
          match BackendMessage(body)
          case None => Err(TypeError)
          case Some(_) => Err(Sdk(SdkError("google", "API_ERROR")))
        else Success(s, body)
  }

  /** As written, every non-ok response whose message can be rendered
      throws the same error, whatever the backend said, and it names
      "API_ERROR" rather than "google" as its provider; a message whose
      rendering throws gives the TypeError instead. */
  lemma ErrorLosesBackendMessage(req: Request, status: nat, b1: Json, b2: Json)
    requires req.google.Some?
    ensures var r1 := GoogleCoreAsWritten(req, HttpResponse(false, status, Some(b1)));
            var r2 := GoogleCoreAsWritten(req, HttpResponse(false, status, Some(b2)));
            && (BackendMessage(b1).Some? && BackendMessage(b2).Some? ==> r1 == r2)
            && (BackendMessage(b1).Some? ==> r1.Err? && r1.error.Sdk? && r1.error.error.provider != "google")
            && (BackendMessage(b1).None? ==> r1 == Err(TypeError))
  {
  }

  /** `rawData?.error?.message ?? 'Gemini error'`, as a template literal
      renders it; `None` is the TypeError the rendering throws. */
  function BackendMessage(body: Json): (m: Option<string>)
    ensures m.None? <==> !Renders(ErrorField(body))
    ensures ErrorField(body).IsNullish() ==> m == Some("Gemini error")
    ensures ErrorField(body).Str? ==> m == Some(ErrorField(body).s)
    ensures ErrorField(body).Num? ==> m == Some(ErrorField(body).n.repr)
    ensures ErrorField(body).Bool? ==> m == Some(if ErrorField(body).b then "true" else "false")
    ensures ErrorField(body).Obj? && m.Some? ==> m.value == "[object Object]"
    ensures ErrorField(body).Arr? ==> m == ToStr(ErrorField(body))
  {
    ToStr(Coalesce(ErrorField(body), Str("Gemini error")))
  }

  /** `googleCoreProvider` with the error it evidently means: provider
      "google" and message "Gemini error <backend message>". */
  function GoogleCore(req: Request, res: HttpResponse): (r: Result<Output, Exception>)
    ensures req.google.None? ==> r == Err(Sdk(SdkError("google provider config missing", "google")))
    ensures req.google.Some? && res.body.None? ==> r == Err(SyntaxError)
    ensures req.google.Some? && res.body.Some? && !res.ok && BackendMessage(res.body.value).Some?
            ==> r == Err(Sdk(SdkError("Gemini error " + BackendMessage(res.body.value).value, "google")))
    ensures req.google.Some? && res.body.Some? && !res.ok && BackendMessage(res.body.value).None?
            ==> r == Err(TypeError)
    ensures req.google.Some? && res.body.Some? && res.ok ==> r == Success(req.google.value, res.body.value)
    ensures res.ok ==> r == GoogleCoreAsWritten(req, res)
    ensures r == Err(TypeError) <==> GoogleCoreAsWritten(req, res) == Err(TypeError)
  {
    match req.google
    case None => Err(Sdk(SdkError("google provider config missing", "google")))
    case Some(s) =>
      match res.body
      case None => Err(SyntaxError)
      case Some(body) =>
        if !res.ok then
          match BackendMessage(body)
          case None => Err(TypeError)
          case Some(m) => Err(Sdk(SdkError("Gemini error " + m, "google")))
        else Success(s, body)
  }

  /** Corrected, every error names "google", and a non-ok response's error
      carries the backend's message, so different messages give different
      errors. */
  lemma ErrorKeepsBackendMessage(req: Request, res: HttpResponse)
    requires req.google.Some? && res.body.Some? && !res.ok
    ensures var r := GoogleCore(req, res);
            BackendMessage(res.body.value).Some?
            ==> && r.Err? && r.error.Sdk? && r.error.error.provider == "google"
                && r.error.error.message[|"Gemini error "|..] == BackendMessage(res.body.value).value
  {
  }

  /** A successful result: provider "google", the request's model echoed,
      the text under `data`, never nullish, and `raw` present exactly when
      the section's `raw` is literally `true`, holding the body unchanged. */
  lemma SuccessShape(req: Request, res: HttpResponse)
    requires GoogleCore(req, res).Ok?
    ensures var o := GoogleCore(req, res).value;
            && req.google.Some? && res.ok && res.body.Some? && !res.body.value.IsNullish()
            && o.field == Data && o.provider == "google" && o.model == req.google.value.model
            && !o.text.IsNullish()
            && (o.raw.Some? <==> req.google.value.raw == Some(true))
            && (o.raw.Some? ==> o.raw.value == res.body.value)
  {
  }
}

=== FILE: js.dfy ===
/** The slice of JavaScript value semantics the adapters rely on: parsed JSON
    values (with `undefined` kept apart from `null`), `String.prototype.trim`,
    truthiness, property reads with `.` and `?.`, `String(x)` and
    `Array.prototype.join`, and the decimal rendering of an HTTP status. */
module Js {
  import opened Wrappers

  /** A JavaScript number, held as the text `String(n)` gives for it
      (so `-0` is held as "0" and every NaN as "NaN"). */
  datatype Number = Number(repr: string)

  /** A value as `JSON.parse` returns it, plus `undefined`, which is what a
      read of a missing property gives. `??` and `?.` treat `Undefined` and
      `Null` alike; `!== undefined` does not. */
  datatype Json =
    | Undefined
    | Null
    | Bool(b: bool)
    | Num(n: Number)
    | Str(s: string)
    | Arr(items: seq<Json>)
    | Obj(fields: map<string, Json>)
  {
    /** `x == null`: the values `??` replaces and `?.` stops at. */
    predicate IsNullish() {
      Undefined? || Null?
    }
  }

  /** `a ?? b` where evaluating `b` cannot throw. */
  function Coalesce(a: Json, b: Json): Json {
    if a.IsNullish() then b else a
  }

  /** JavaScript truthiness (`if (x)`). */
  predicate Truthy(x: Json) {
    match x
    case Undefined => false
    case Null => false
    case Bool(b) => b
    case Num(n) => n.repr != "0" && n.repr != "NaN"
    case Str(s) => s != ""
    case Arr(_) => true
    case Obj(_) => true
  }

  // ---------------------------------------------------------------------------
  // String.prototype.trim
  // ---------------------------------------------------------------------------

  /** The characters `trim` removes: ECMAScript WhiteSpace (TAB, VT, FF, SPACE,
      NO-BREAK SPACE, ZERO WIDTH NO-BREAK SPACE and the Unicode Zs category)
      and LineTerminator (LF, CR, LINE SEPARATOR, PARAGRAPH SEPARATOR). */
  predicate IsWhitespace(c: char) {
    var n := c as int;
    || n == 0x09 || n == 0x0A || n == 0x0B || n == 0x0C || n == 0x0D
    || n == 0x20 || n == 0xA0 || n == 0x1680
    || (0x2000 <= n <= 0x200A)
    || n == 0x2028 || n == 0x2029 || n == 0x202F || n == 0x205F
    || n == 0x3000 || n == 0xFEFF
  }

  /** The string holds at least one character `trim` keeps. */
  predicate HasVisible(s: string) {
    exists i :: 0 <= i < |s| && !IsWhitespace(s[i])
  }

  /** Drops leading whitespace. */
  function TrimStart(s: string): (r: string)
    ensures |r| <= |s| && r == s[|s| - |r|..]
    ensures r == "" <==> !HasVisible(s)
    ensures r != "" ==> !IsWhitespace(r[0])
    ensures forall i :: 0 <= i < |s| - |r| ==> IsWhitespace(s[i])
    decreases |s|
  {
    if |s| > 0 && IsWhitespace(s[0]) then
      var r := TrimStart(s[1..]);
      assert forall i :: 0 <= i < |s[1..]| ==> s[1..][i] == s[i + 1];
      r
    else
      s
  }

  /** Drops trailing whitespace. */
  function TrimEnd(s: string): (r: string)
    ensures |r| <= |s| && r == s[..|r|]
    ensures r != "" ==> !IsWhitespace(r[|r| - 1])
    ensures forall i :: |r| <= i < |s| ==> IsWhitespace(s[i])
    ensures |s| > 0 && !IsWhitespace(s[0]) ==> r != ""
    decreases |s|
  {
    if |s| > 0 && IsWhitespace(s[|s| - 1]) then
      var r := TrimEnd(s[..|s| - 1]);
      assert s[..|s| - 1][..|r|] == s[..|r|];
      r
    else
      s
  }

  /** `s.trim()`: the string without leading and trailing whitespace. */
  function Trim(s: string): (r: string)
    ensures r == "" <==> !HasVisible(s)
    ensures r != "" ==> !IsWhitespace(r[0]) && !IsWhitespace(r[|r| - 1])
    ensures exists i, j :: 0 <= i <= j <= |s| && r == s[i..j]
              && (forall k :: 0 <= k < i ==> IsWhitespace(s[k]))
              && (forall k :: j <= k < |s| ==> IsWhitespace(s[k]))
  {
    var t := TrimStart(s);
    var r := TrimEnd(t);
    TrimWitness(s, t, r);
    r
  }

  /** The slice `Trim` keeps, with the whitespace on either side of it. */
  lemma TrimWitness(s: string, t: string, r: string)
    requires |t| <= |s| && t == s[|s| - |t|..]
    requires forall k :: 0 <= k < |s| - |t| ==> IsWhitespace(s[k])
    requires |r| <= |t| && r == t[..|r|]
    requires forall k :: |r| <= k < |t| ==> IsWhitespace(t[k])
    ensures exists i, j :: 0 <= i <= j <= |s| && r == s[i..j]
              && (forall k :: 0 <= k < i ==> IsWhitespace(s[k]))
              && (forall k :: j <= k < |s| ==> IsWhitespace(s[k]))
  {
    var i := |s| - |t|;
    var j := i + |r|;
    assert r == s[i..j];
    assert forall k :: 0 <= k < i ==> IsWhitespace(s[k]);
    assert forall k :: j <= k < |s| ==> IsWhitespace(s[k]) by {
      forall k | j <= k < |s|
        ensures IsWhitespace(s[k])
      {
        assert s[k] == t[k - i];
      }
    }
    assert 0 <= i <= j <= |s| && r == s[i..j]
           && (forall k :: 0 <= k < i ==> IsWhitespace(s[k]))
           && (forall k :: j <= k < |s| ==> IsWhitespace(s[k]));
  }

  // ---------------------------------------------------------------------------
  // Property reads
  // ---------------------------------------------------------------------------

  /** `x?.key` for a key that is not an array index. Numbers, strings,
      booleans and arrays have none of the keys the adapters read
      (`text`, `content`, `output`, `choices`, ...), so only objects give a
      value. */
  function OptProp(x: Json, key: string): Json {
    match x
    case Obj(m) => if key in m then m[key] else Undefined
    case _ => Undefined
  }

  /** `x.key`: reading a property of `null` or `undefined` throws a
      TypeError, shown here as `None`. */
  function Prop(x: Json, key: string): (r: Option<Json>)
    ensures r.None? <==> x.IsNullish()
    ensures r.Some? ==> r.value == OptProp(x, key)
  {
    if x.IsNullish() then None else Some(OptProp(x, key))
  }

  /** `x?.[0]`: the first element of an array, the first character of a
      string, or the property "0" of an object. */
  function OptAt0(x: Json): Json {
    match x
    case Arr(items) => if |items| > 0 then items[0] else Undefined
    case Str(s) => if |s| > 0 then Str(s[..1]) else Undefined
    case Obj(m) => if "0" in m then m["0"] else Undefined
    case _ => Undefined
  }

  // ---------------------------------------------------------------------------
  // String(x) and Array.prototype.join
  // ---------------------------------------------------------------------------

  /** `pieces.join(sep)` for pieces already converted to strings. */
  function JoinWith(pieces: seq<string>, sep: string): string
    decreases |pieces|
  {
    if |pieces| == 0 then ""
    else if |pieces| == 1 then pieces[0]
    else pieces[0] + sep + JoinWith(pieces[1..], sep)
  }

  /** Whether converting `x` to a string succeeds. An object with an own
      `toString` key holds a value that is not a function (`JSON.parse`
      makes none), so the conversion finds nothing to call and throws a
      TypeError; an array fails when one of its elements does. */
  predicate Renders(x: Json)
    decreases x
  {
    match x
    case Arr(items) => forall i :: 0 <= i < |items| ==> Renders(items[i])
    case Obj(m) => "toString" !in m
    case _ => true
  }

  /** `String(x)`, as `join`, a template literal and the `Error`
      constructor apply it; `None` is the TypeError the conversion throws.
      An array renders as `x.join(",")`, and any other object as
      "[object Object]". */
  function ToStr(x: Json): (r: Option<string>)
    ensures r.Some? <==> Renders(x)
    ensures x.Str? ==> r == Some(x.s)
    ensures x.Num? ==> r == Some(x.n.repr)
    ensures x.Bool? ==> r == Some(if x.b then "true" else "false")
    ensures x.Undefined? ==> r == Some("undefined")
    ensures x.Null? ==> r == Some("null")
    ensures x.Obj? && r.Some? ==> r.value == "[object Object]"
    ensures x == Arr([]) ==> r == Some("")
    ensures x.Arr? && |x.items| == 1 && x.items[0].IsNullish() ==> r == Some("")
    ensures x.Arr? && |x.items| == 1 && !x.items[0].IsNullish() ==> r == ToStr(x.items[0])
    decreases x
  {
    match x
    case Undefined => Some("undefined")
    case Null => Some("null")
    case Bool(b) => Some(if b then "true" else "false")
    case Num(n) => Some(n.repr)
    case Str(s) => Some(s)
    case Arr(items) =>
      if forall i :: 0 <= i < |items| ==> ToStr(items[i]).Some? then
        Some(JoinWith(seq(|items|, i requires 0 <= i < |items| =>
                        if items[i].IsNullish() then "" else ToStr(items[i]).value), ","))
      else None
    case Obj(m) => if "toString" in m then None else Some("[object Object]")
  }

  /** `String` of an array of two or more elements is the first element
      as `join` renders it, a comma, then `String` of the rest: the
      elements' texts joined with ",". */
  lemma ToStrArrCons(a: Json, rest: seq<Json>)
    requires |rest| > 0 && Renders(Arr([a] + rest))
    ensures Renders(a) && Renders(Arr(rest))
    ensures ToStr(Arr([a] + rest)).value == JoinPiece(a).value + "," + ToStr(Arr(rest)).value
  {
    var items := [a] + rest;
    assert items[0] == a;
    assert forall i :: 0 <= i < |rest| ==> rest[i] == items[i + 1];
    assert Renders(a) && forall i :: 0 <= i < |rest| ==> Renders(rest[i]);
    var p := seq(|items|, i requires 0 <= i < |items| =>
                 if items[i].IsNullish() then "" else ToStr(items[i]).value);
    var q := seq(|rest|, i requires 0 <= i < |rest| =>
                 if rest[i].IsNullish() then "" else ToStr(rest[i]).value);
    assert ToStr(Arr(items)) == Some(JoinWith(p, ","));
    assert ToStr(Arr(rest)) == Some(JoinWith(q, ","));
    assert p[1..] == q;
    assert p[0] == JoinPiece(a).value;
    assert JoinWith(p, ",") == p[0] + "," + JoinWith(p[1..], ",");
  }

  /** How `join` renders one element: `null` and `undefined` become "",
      anything else is converted with `String`. */
  function JoinPiece(x: Json): (r: Option<string>)
    ensures r.Some? <==> Renders(x)
    ensures x.IsNullish() ==> r == Some("")
    ensures !x.IsNullish() ==> r == ToStr(x)
  {
    if x.IsNullish() then Some("") else ToStr(x)
  }

  /** The strings `f` gives for the elements, element by element; an
      element on which `f` throws contributes "". */
  function MappedPieces(items: seq<Json>, f: Json -> Option<string>): seq<string> {
    seq(|items|, i requires 0 <= i < |items| => f(items[i]).GetOr(""))
  }

  /** Joining with "" puts the first piece in front of the join of the rest. */
  lemma JoinEmptyCons(pieces: seq<string>)
    requires |pieces| > 0
    ensures JoinWith(pieces, "") == pieces[0] + JoinWith(pieces[1..], "")
  {
    if |pieces| == 1 {
      assert pieces[0] + "" == pieces[0];
    }
  }

  /** Maps every element through `f` (which throws when it returns `None`)
      and joins the results with "": `items.map(f).join('')`. */
  function MapJoinItems(items: seq<Json>, f: Json -> Option<string>): (r: Option<string>)
    ensures r.Some? <==> forall i :: 0 <= i < |items| ==> f(items[i]).Some?
    ensures r.Some? ==> r.value == JoinWith(MappedPieces(items, f), "")
    decreases |items|
  {
    if |items| == 0 then Some("")
    else
      match f(items[0])
      case None => None
      case Some(p) =>
        match MapJoinItems(items[1..], f)
        case None => None
        case Some(rest) =>
          assert MappedPieces(items, f)[1..] == MappedPieces(items[1..], f);
          JoinEmptyCons(MappedPieces(items, f));
          Some(p + rest)
  }

  /** `content?.map(f).join('')`: `undefined` when `content` is nullish, a
      string when it is an array, and a TypeError (`None`) when it is any
      other value, which has no `map` method, or when `f` throws. */
  function OptMapJoin(content: Json, f: Json -> Option<string>): (r: Option<Json>)
    ensures content.IsNullish() ==> r == Some(Undefined)
    ensures !content.IsNullish() && !content.Arr? ==> r.None?
    ensures content.Arr? ==> (r.Some? <==> forall i :: 0 <= i < |content.items| ==> f(content.items[i]).Some?)
    ensures content.Arr? && r.Some? ==> r.value == Str(JoinWith(MappedPieces(content.items, f), ""))
  {
    match content
    case Undefined => Some(Undefined)
    case Null => Some(Undefined)
    case Arr(items) =>
      (match MapJoinItems(items, f)
       case None => None
       case Some(s) => Some(Str(s)))
    case _ => None
  }

  /** The element mapper `c => (typeof c.text === 'string' ? c.text : '')`. */
  function StringTextOf(c: Json): (r: Option<string>)
    ensures r.None? <==> c.IsNullish()
    ensures r.Some? && OptProp(c, "text").Str? ==> r.value == OptProp(c, "text").s
    ensures r.Some? && !OptProp(c, "text").Str? ==> r.value == ""
  {
    match Prop(c, "text")
    case None => None
    case Some(t) => Some(if t.Str? then t.s else "")
  }

  /** The element mapper `c => c.text` as `join('')` renders its result. */
  function JoinedTextOf(c: Json): (r: Option<string>)
    ensures r.None? <==> c.IsNullish() || !Renders(OptProp(c, "text"))
    ensures !c.IsNullish() ==> r == JoinPiece(OptProp(c, "text"))
    ensures r.Some? && OptProp(c, "text").Str? ==> r.value == OptProp(c, "text").s
    ensures r.Some? && OptProp(c, "text").IsNullish() ==> r.value == ""
    ensures r.Some? && OptProp(c, "text").Num? ==> r.value == OptProp(c, "text").n.repr
    ensures r.Some? && OptProp(c, "text").Obj? ==> r.value == "[object Object]"
  {
    match Prop(c, "text")
    case None => None
    case Some(t) => JoinPiece(t)
  }

  // ---------------------------------------------------------------------------
  // Decimal rendering of a status code in a template literal
  // ---------------------------------------------------------------------------

  predicate IsDigit(c: char) {
    '0' as int <= c as int <= '9' as int
  }

  function DigitChar(d: nat): (c: char)
    requires d < 10
    ensures IsDigit(c)
  {
    ('0' as int + d) as char
  }

  /** The value a string of decimal digits denotes. */
  function DecimalValue(s: string): nat
    requires forall i :: 0 <= i < |s| ==> IsDigit(s[i])
    decreases |s|
  {
    if |s| == 0 then 0
    else
      assert IsDigit(s[|s| - 1]);
      10 * DecimalValue(s[..|s| - 1]) + (s[|s| - 1] as int - '0' as int)
  }

  /** `${n}` for a non-negative integer: its decimal digits. */
  function NatToString(n: nat): (r: string)
    ensures |r| > 0
    ensures forall i :: 0 <= i < |r| ==> IsDigit(r[i])
    ensures |r| > 1 ==> r[0] != '0'
    decreases n
  {
    if n < 10 then [DigitChar(n)] else NatToString(n / 10) + [DigitChar(n % 10)]
  }

  /** Reading the rendered digits back gives the number: the rendering loses
      nothing, so two different statuses never print alike. */
  lemma {:induction false} NatToStringRoundTrip(n: nat)
    ensures DecimalValue(NatToString(n)) == n
    decreases n
  {
    if n >= 10 {
      NatToStringRoundTrip(n / 10);
      var s := NatToString(n);
      assert s[..|s| - 1] == NatToString(n / 10);
    }
  }
}

=== FILE: mistral.dfy ===
/** The Mistral chat adapter: the request it sends and how the response
    becomes an `Output`. The source has no guard for a missing `mistral`
    section: building the request then throws a TypeError. */
module Mistral {
  import opened Wrappers
  import opened Js
  import opened Types

  /** The request body, or the TypeError thrown reading the model of a
      missing section. */
  function BuildRequest(req: Request): (r: Result<Json, Exception>)
    ensures req.mistral.None? <==> r == Err(TypeError)
    ensures req.mistral.Some? ==> r == Ok(ChatBody(req.mistral.value))
  {
    match req.mistral
    case None => Err(TypeError)
    case Some(s) => Ok(ChatBody(s))
  }

  /** `data.choices?.[0]?.message?.content`, with no default; reading
      `choices` of a `null` body throws. */
  function ResponseText(data: Json): (r: Option<Json>)
    ensures r.None? <==> data.IsNullish()
    ensures r.Some? ==> r.value == ChoiceContent(data)
  {
    match Prop(data, "choices")
    case None => None
    case Some(_) => Some(ChoiceContent(data))
  }

  /** `mistralProvider`, for the request, the response and the body
      serialiser. The error's provider is "Mistral", capitalised; the
      output's is "mistral"; the body is never copied. */
  function Mistral(req: Request, res: HttpResponse, stringify: Json -> string): (r: Result<Output, Exception>)
    ensures req.mistral.None? ==> r == Err(TypeError)
    ensures req.mistral.Some? && res.body.None? ==> r == Err(SyntaxError)
    ensures req.mistral.Some? && res.body.Some? && !res.ok
            ==> r == Err(Sdk(SdkError(StatusMessage("Mistral error ", res.status, stringify(res.body.value)), "Mistral")))
    ensures r.Ok? <==> req.mistral.Some? && res.ok && res.body.Some? && !res.body.value.IsNullish()
    ensures r.Ok? ==> && r.value.field == Text && r.value.provider == "mistral"
                      && r.value.model == req.mistral.value.model
                      && r.value.text == ResponseText(res.body.value).value
                      && r.value.raw.None?
  {
    match BuildRequest(req)
    case Err(e) => Err(e)
    case Ok(_) =>
      var s := req.mistral.value;
      match res.body
      case None => Err(SyntaxError)
      case Some(data) =>
        if !res.ok then
          Err(Sdk(SdkError(StatusMessage("Mistral error ", res.status, stringify(data)), "Mistral")))
        else
          match ResponseText(data)
          case None => Err(TypeError)
          case Some(text) => Ok(Output(Text, text, "mistral", s.model, None))
  }

  /** A successful response whose body has no `choices` gives an output
      whose text is `undefined`. */
  lemma NoChoicesNoText(req: Request, status: nat, fields: map<string, Json>, stringify: Json -> string)
    requires req.mistral.Some? && "choices" !in fields
    ensures var r := Mistral(req, HttpResponse(true, status, Some(Obj(fields))), stringify);
            r.Ok? && r.value.text == Undefined
  {
  }
}

=== FILE: mistral_stream.dfy ===
/** The Mistral streaming adapter: the shell around the shared reader loop,
    and the text each parsed event contributes. */
module MistralStream {
  import opened Wrappers
  import opened Js
  import opened Types
  import opened Framing

  /** `event.choices?.[0]?.message?.content ?? ''` for an event that is not
      nullish. */
  function Text(ev: Json): Json {
    Coalesce(ChoiceContent(ev), Str(""))
  }

  /** One parsed event: `event.choices` throws on a `null` event; otherwise
      the text is yielded when it is truthy and dropped when it is not. */
  function Event(ev: Json): (r: Result<seq<Json>, Exception>)
    ensures ev.IsNullish() <==> r == Err(TypeError)
    ensures !ev.IsNullish() ==> r.Ok?
    ensures r.Ok? ==> (r.value == [Text(ev)] <==> Truthy(Text(ev)))
    ensures r.Ok? ==> (r.value == [] <==> !Truthy(Text(ev)))
  {
    if ev.IsNullish() then Err(TypeError)
    else if Truthy(Text(ev)) then Ok([Text(ev)])
    else Ok([])
  }

  /** A string content is yielded exactly when it is not empty; an absent
      or `null` content yields nothing. */
  lemma StringContent(ev: Json)
    requires !ev.IsNullish()
    ensures Text(ev).Str? ==> (Event(ev) == Ok([Text(ev)]) <==> Text(ev).s != "")
    ensures ChoiceContent(ev).IsNullish() ==> Event(ev) == Ok([])
  {
  }

  /** The texts the events yield, in order: the truthy contents. */
  function Yielded(events: seq<Json>): (r: seq<Json>)
    ensures |r| <= |events|
    ensures forall i :: 0 <= i < |r| ==> Truthy(r[i])
    decreases |events|
  {
    if |events| == 0 then []
    else
      var t := Text(events[0]);
      (if Truthy(t) then [t] else []) + Yielded(events[1..])
  }

  lemma {:induction false} RunYields(events: seq<Json>, tail: string)
    ensures var d := RunEvents(events, tail, Event);
            d.Reading? ==> d.emitted == Yielded(events)
    decreases |events|
  {
    if |events| > 0 {
      RunYields(events[1..], tail);
    }
  }

  /** `mistralStreamProvider`. */
  function MistralStream(req: Request, res: StreamResponse, chunks: seq<string>,
                         parse: string -> Option<Json>): (d: Decoder<Json>)
    ensures req.mistral.None? ==> d == Failed([], Sdk(SdkError("mistral provider config missing", "mistral")))
    ensures req.mistral.Some? && (!res.ok || !res.hasBody)
            ==> d == Failed([], Raise(ErrorMessage(res.errorBody, "Mistral streaming error " + NatToString(res.status)), "mistral"))
  {
    Stream(req.mistral.Some?, "mistral", "mistral provider config missing", "Mistral streaming error ", res, chunks, parse, Event)
  }

  /** Once streaming, the stream yields the truthy texts of the parsed
      events in line order, and throws exactly when some parsed event is
      `null`; chunk boundaries never matter. */
  lemma YieldsTruthyTexts(req: Request, res: StreamResponse, chunks: seq<string>,
                          parse: string -> Option<Json>)
    requires req.mistral.Some? && res.ok && res.hasBody
    ensures var events := Events(Concat(chunks), parse);
            var d := MistralStream(req, res, chunks, parse);
            && (d.Failed? <==> exists i :: 0 <= i < |events| && events[i].IsNullish())
            && (d.Reading? ==> d.emitted == Yielded(events))
  {
    var s := Concat(chunks);
    var events := Events(s, parse);
    StreamEvents(true, "mistral", "mistral provider config missing", "Mistral streaming error ", res, chunks, parse, Event);
    RunEventsFails(events, SplitLines(s).tail, Event);
    RunYields(events, SplitLines(s).tail);
  }

  lemma Rechunked(req: Request, res: StreamResponse, a: seq<string>, b: seq<string>,
                  parse: string -> Option<Json>)
    requires Concat(a) == Concat(b)
    ensures MistralStream(req, res, a, parse) == MistralStream(req, res, b, parse)
  {
    StreamRechunking(req.mistral.Some?, "mistral", "mistral provider config missing", "Mistral streaming error ", res, a, b, parse, Event);
  }
}

=== FILE: openai_stream.dfy ===
/** The OpenAI streaming adapter: the Responses API request it sends, the
    shell around the shared reader loop, and how each parsed event becomes a
    `StreamOutput`. */
module OpenAiStream {
  import opened Wrappers
  import opened Js
  import opened Types
  import opened Framing

  /** The JSON body of the request: the model, the system text and prompt as
      one `input`, temperature and `max_output_tokens` passed through, and
      `stream: true`. */
  function Body(s: Section): Json {
    Obj(map[
      "model" := Str(s.model),
      "input" := Str(PromptText(s)),
      "temperature" := OptNum(s.temperature),
      "max_output_tokens" := OptNum(s.maxTokens),
      "stream" := Bool(true)])
  }

  /** The sampling settings reach the backend unchanged, the request always
      asks for a stream, and nothing but the five fields is sent. */
  lemma BodyPassesSettings(s: Section)
    ensures Body(s).fields.Keys == {"model", "input", "temperature", "max_output_tokens", "stream"}
    ensures Body(s).fields["temperature"] == OptNum(s.temperature)
    ensures Body(s).fields["max_output_tokens"] == OptNum(s.maxTokens)
    ensures Body(s).fields["stream"] == Bool(true)
  {
  }

  /** One parsed event. `event.output_text` throws on a `null` event; the
      text (see `OutputText`) may throw; otherwise exactly one output,
      which carries the event itself as `raw`. `done` tests `!==
      undefined`, so a `null` `output_text` still counts. */
  function Event(ev: Json): (r: Result<seq<StreamOutput>, Exception>)
    ensures ev.IsNullish() ==> r == Err(TypeError)
    ensures !ev.IsNullish() ==> (r.Ok? <==> OutputText(ev, StringTextOf).Some?)
    ensures r.Ok? ==> |r.value| == 1 && r.value[0].raw == ev && r.value[0].provider == "openai"
    ensures r.Ok? ==> r.value[0].text == OutputText(ev, StringTextOf).value
    ensures r.Ok? ==> (r.value[0].done <==> !OptProp(ev, "output_text").Undefined? || !OutputContent(ev).Undefined?)
    ensures r.Err? ==> r.error == TypeError
  {
    if ev.IsNullish() then Err(TypeError)
    else
      match OutputText(ev, StringTextOf)
      case None => Err(TypeError)
      case Some(text) =>
        var done := !OptProp(ev, "output_text").Undefined? || !OutputContent(ev).Undefined?;
        Ok([StreamOutput(text, done, ev, "openai")])
  }

  /** With no usable `output_text`, the content parts' `text` values are
      joined, a part whose `text` is not a string counting as "", and a
      `null` part makes the mapping throw. */
  lemma EventContentParts(ev: Json)
    requires !ev.IsNullish() && OptProp(ev, "output_text").IsNullish() && OutputContent(ev).Arr?
    ensures var items := OutputContent(ev).items;
            Event(ev).Ok? <==> forall i :: 0 <= i < |items| ==> !items[i].IsNullish()
    ensures var items := OutputContent(ev).items;
            |items| == 1 && !items[0].IsNullish() && !OptProp(items[0], "text").Str?
            ==> Event(ev).value[0].text == Str("")
    ensures var items := OutputContent(ev).items;
            Event(ev).Ok? ==> Event(ev).value[0].text == Str(JoinWith(MappedPieces(items, StringTextOf), ""))
    ensures var items := OutputContent(ev).items;
            Event(ev).Ok? ==> forall i :: 0 <= i < |items| ==>
              MappedPieces(items, StringTextOf)[i] == (if OptProp(items[i], "text").Str? then OptProp(items[i], "text").s else "")
  {
  }

  /** An event whose `output_text` is `null` always reports `done`, and
      when it also has no content its text is "". */
  lemma NullOutputTextIsDone(ev: Json)
    requires !ev.IsNullish() && OptProp(ev, "output_text") == Null
    ensures Event(ev).Ok? ==> Event(ev).value[0].done
    ensures OutputContent(ev).IsNullish() ==> Event(ev) == Ok([StreamOutput(Str(""), true, ev, "openai")])
  {
  }

  /** `openaiStreamProvider`: what it yields and what it throws, for the
      request, the response and the decoded chunks of the body. */
  function OpenAiStream(req: Request, res: StreamResponse, chunks: seq<string>,
                        parse: string -> Option<Json>): (d: Decoder<StreamOutput>)
    ensures req.openai.None? ==> d == Failed([], Sdk(SdkError("openai provider config missing", "openai")))
    ensures req.openai.Some? && (!res.ok || !res.hasBody)
            ==> d == Failed([], Raise(ErrorMessage(res.errorBody, "OpenAI streaming error " + NatToString(res.status)), "openai"))
  {
    Stream(req.openai.Some?, "openai", "openai provider config missing", "OpenAI streaming error ", res, chunks, parse, Event)
  }

  /** Once streaming, exactly one output per parsed event, in line order,
      each carrying its event; the stream throws exactly when some event's
      mapping does. */
  lemma OnePerParsedLine(req: Request, res: StreamResponse, chunks: seq<string>,
                         parse: string -> Option<Json>)
    requires req.openai.Some? && res.ok && res.hasBody
    ensures var events := Events(Concat(chunks), parse);
            var d := OpenAiStream(req, res, chunks, parse);
            && (d.Failed? <==> exists i :: 0 <= i < |events| && Event(events[i]).Err?)
            && (d.Reading? ==> && |d.emitted| == |events|
                               && forall i :: 0 <= i < |events| ==> d.emitted[i].raw == events[i])
  {
    var s := Concat(chunks);
    StreamEvents(true, "openai", "openai provider config missing", "OpenAI streaming error ", res, chunks, parse, Event);
    RunEventsFails(Events(s, parse), SplitLines(s).tail, Event);
    OnePerEvent(Events(s, parse), SplitLines(s).tail, Event, (o: StreamOutput) => o.raw);
  }

  /** Two cuttings of the same body into chunks give the same outputs. */
  lemma Rechunked(req: Request, res: StreamResponse, a: seq<string>, b: seq<string>,
                  parse: string -> Option<Json>)
    requires Concat(a) == Concat(b)
    ensures OpenAiStream(req, res, a, parse) == OpenAiStream(req, res, b, parse)
  {
    StreamRechunking(req.openai.Some?, "openai", "openai provider config missing", "OpenAI streaming error ", res, a, b, parse, Event);
  }
}

=== FILE: types.dfy ===
/** The shapes shared by the validators and the adapters: backends, the
    request and configuration records, the error the library raises, and
    the normalised outputs. */
module Types {
  import opened Wrappers
  import opened Js

  /** The five backends, in the order the validators examine them. */
  datatype Backend = Google | OpenAi | DeepSeek | Mistral | Anthropic

  const Backends: seq<Backend> := [Google, OpenAi, DeepSeek, Mistral, Anthropic]

  /** The position of a backend in `Backends`. */
  function Rank(b: Backend): nat {
    match b
    case Google => 0
    case OpenAi => 1
    case DeepSeek => 2
    case Mistral => 3
    case Anthropic => 4
  }

  /** Each backend is listed once. */
  lemma BackendsDistinct()
    ensures NoDuplicates(Backends)
  {
    assert forall i :: 0 <= i < |Backends| ==> Rank(Backends[i]) == i;
  }

  /** The name a backend's request and configuration section is keyed by,
      and the provider its errors and outputs carry. */
  function Name(b: Backend): string {
    match b
    case Google => "google"
    case OpenAi => "openai"
    case DeepSeek => "deepseek"
    case Mistral => "mistral"
    case Anthropic => "anthropic"
  }

  /** One backend's part of a request. `temperature` and `maxTokens` are
      passed through to the backend unchanged. */
  datatype Section = Section(
    model: string,
    prompt: string,
    system: Option<string>,
    temperature: Option<Number>,
    maxTokens: Option<Number>,
    raw: Option<bool>,
    stream: Option<bool>)

  /** A request: one optional section per backend (the caller is meant to
      fill exactly one), plus the top-level `raw` flag the DeepSeek adapter
      reads. */
  datatype Request = Request(
    google: Option<Section>,
    openai: Option<Section>,
    deepseek: Option<Section>,
    mistral: Option<Section>,
    anthropic: Option<Section>,
    raw: Option<bool>)

  function SectionOf(req: Request, b: Backend): Option<Section> {
    match b
    case Google => req.google
    case OpenAi => req.openai
    case DeepSeek => req.deepseek
    case Mistral => req.mistral
    case Anthropic => req.anthropic
  }

  /** No backend occurs twice. */
  predicate NoDuplicates(bs: seq<Backend>) {
    forall i, j :: 0 <= i < j < |bs| ==> bs[i] != bs[j]
  }

  /** `r` is `bs` with some elements left out, the rest kept in order. */
  predicate IsSubsequence(r: seq<Backend>, bs: seq<Backend>)
    decreases |bs|
  {
    if |r| == 0 then true
    else if |bs| == 0 then false
    else (r[0] == bs[0] && IsSubsequence(r[1..], bs[1..])) || IsSubsequence(r, bs[1..])
  }

  /** The backends among `bs` whose request section is present, in order. */
  function PresentAmong(req: Request, bs: seq<Backend>): (r: seq<Backend>)
    ensures forall i :: 0 <= i < |r| ==> SectionOf(req, r[i]).Some? && r[i] in bs
    ensures forall b :: b in bs && SectionOf(req, b).Some? ==> b in r
    ensures |r| <= |bs|
    ensures IsSubsequence(r, bs)
    ensures NoDuplicates(bs) ==> NoDuplicates(r)
    decreases |bs|
  {
    if |bs| == 0 then []
    else if SectionOf(req, bs[0]).Some? then [bs[0]] + PresentAmong(req, bs[1..])
    else PresentAmong(req, bs[1..])
  }

  /** The backends a request selects. */
  function Selected(req: Request): (r: seq<Backend>)
    ensures IsSubsequence(r, Backends) && NoDuplicates(r)
  {
    BackendsDistinct();
    PresentAmong(req, Backends)
  }

  /** One backend's part of the configuration. The key is whatever value the
      caller stored; the validator checks that it is a string. */
  datatype KeySection = KeySection(apiKey: Json)

  datatype Config = Config(
    google: Option<KeySection>,
    openai: Option<KeySection>,
    deepseek: Option<KeySection>,
    mistral: Option<KeySection>,
    anthropic: Option<KeySection>)

  function KeySectionOf(cfg: Config, b: Backend): Option<KeySection> {
    match b
    case Google => cfg.google
    case OpenAi => cfg.openai
    case DeepSeek => cfg.deepseek
    case Mistral => cfg.mistral
    case Anthropic => cfg.anthropic
  }

  /** The backends among `bs` that have a configuration section, in order. */
  function ConfiguredAmong(cfg: Config, bs: seq<Backend>): (r: seq<Backend>)
    ensures forall i :: 0 <= i < |r| ==> KeySectionOf(cfg, r[i]).Some? && r[i] in bs
    ensures forall b :: b in bs && KeySectionOf(cfg, b).Some? ==> b in r
    ensures |r| <= |bs|
    ensures IsSubsequence(r, bs)
    ensures NoDuplicates(bs) ==> NoDuplicates(r)
    decreases |bs|
  {
    if |bs| == 0 then []
    else if KeySectionOf(cfg, bs[0]).Some? then [bs[0]] + ConfiguredAmong(cfg, bs[1..])
    else ConfiguredAmong(cfg, bs[1..])
  }

  /** The configured backends, in the validator's order. */
  function Configured(cfg: Config): (r: seq<Backend>)
    ensures IsSubsequence(r, Backends) && NoDuplicates(r)
  {
    BackendsDistinct();
    ConfiguredAmong(cfg, Backends)
  }

  /** The library's error: its constructor keeps a message and a provider
      and nothing else. */
  datatype SdkError = SdkError(message: string, provider: string)

  /** What an operation can throw: the library's own error, a TypeError from
      reading a property of `null`/`undefined` or calling a missing method,
      or the SyntaxError `res.json()` rejects with on a body that is not
      JSON. */
  datatype Exception = Sdk(error: SdkError) | TypeError | SyntaxError

  /** `new SDKError(message, provider)` for a message value that has
      already been converted with `String`; `None` is a conversion that
      threw, so a TypeError is thrown instead of the library's error. */
  function Raise(message: Option<string>, provider: string): (e: Exception)
    ensures e == TypeError <==> message.None?
    ensures message.Some? ==> e == Sdk(SdkError(message.value, provider))
  {
    match message
    case None => TypeError
    case Some(m) => Sdk(SdkError(m, provider))
  }

  /** The name of the output field that carries the text: google-core and
      anthropic call it `data`, deepseek and mistral call it `text`. */
  datatype TextField = Data | Text

  /** A non-streaming result. The text is whatever JSON value the adapter
      extracted (a string in the normal case); `raw` is the response body,
      present only when the adapter copies it. */
  datatype Output = Output(field: TextField, text: Json, provider: string, model: string, raw: Option<Json>)

  /** An OpenAI streaming result; its `tokens` field is always `undefined`
      and is not carried. */
  datatype StreamOutput = StreamOutput(text: Json, done: bool, raw: Json, provider: string)

  /** What a non-streaming adapter sees of the HTTP exchange: `res.ok`,
      `res.status`, and `res.json()`, which is `None` when the body is not
      JSON. */
  datatype HttpResponse = HttpResponse(ok: bool, status: nat, body: Option<Json>)

  /** What a streaming adapter sees before it starts reading: `res.ok`,
      `res.status`, whether `res.body` is present, and what `res.json()`
      would give on the error path (`None` when that fails). */
  datatype StreamResponse = StreamResponse(ok: bool, status: nat, hasBody: bool, errorBody: Option<Json>)

  // Request bodies are built as the `Json` value handed to `JSON.stringify`;
  // a property whose value is `Undefined` is left out of the serialised text.

  /** The one chat message `{ role: 'user', content: prompt }`. */
  function Message(prompt: string): Json {
    Obj(map["role" := Str("user"), "content" := Str(prompt)])
  }

  /** An optional number as a property value: `undefined` when absent. */
  function OptNum(n: Option<Number>): Json {
    match n
    case Some(v) => Num(v)
    case None => Undefined
  }

  /** The streaming chat body the Mistral and DeepSeek stream adapters both
      send: the model, the one user message, the sampling settings, and
      `stream: true`. */
  function ChatStreamBody(s: Section): Json {
    Obj(map[
      "model" := Str(s.model),
      "messages" := Arr([Message(s.prompt)]),
      "temperature" := OptNum(s.temperature),
      "max_tokens" := OptNum(s.maxTokens),
      "stream" := Bool(true)])
  }

  /** The non-streaming chat body the Mistral and DeepSeek adapters send:
      the model and the one user message, nothing else. */
  function ChatBody(s: Section): Json {
    Obj(map["model" := Str(s.model), "messages" := Arr([Message(s.prompt)])])
  }

  /** No system text reaches a chat backend: the streaming body depends on
      the model, the prompt and the two sampling settings only. */
  lemma ChatStreamBodySends(s: Section, t: Section)
    requires s.model == t.model && s.prompt == t.prompt
    requires s.temperature == t.temperature && s.maxTokens == t.maxTokens
    ensures ChatStreamBody(s) == ChatStreamBody(t)
    ensures ChatStreamBody(s).fields.Keys == {"model", "messages", "temperature", "max_tokens", "stream"}
    ensures ChatStreamBody(s).fields["messages"] == Arr([Obj(map["role" := Str("user"), "content" := Str(s.prompt)])])
  {
  }

  /** The non-streaming chat body depends on the model and the prompt
      only: no system text, temperature or token limit is sent. */
  lemma ChatBodySends(s: Section, t: Section)
    requires s.model == t.model && s.prompt == t.prompt
    ensures ChatBody(s) == ChatBody(t)
    ensures ChatBody(s).fields.Keys == {"model", "messages"}
    ensures ChatBody(s).fields["messages"] == Arr([Obj(map["role" := Str("user"), "content" := Str(s.prompt)])])
  {
  }

  /** `${system ?? ''} ${prompt}`: the system text (or nothing) and the
      prompt, separated by one space. */
  function PromptText(s: Section): (r: string)
    ensures |r| == |s.system.GetOr("")| + 1 + |s.prompt|
    ensures r[|s.system.GetOr("")|] == ' '
    ensures r[..|s.system.GetOr("")|] == s.system.GetOr("")
    ensures r[|s.system.GetOr("")| + 1..] == s.prompt
  {
    s.system.GetOr("") + " " + s.prompt
  }

  /** Without a system text the prompt follows one space. */
  lemma PromptTextWithoutSystem(s: Section)
    requires s.system.None?
    ensures PromptText(s) == " " + s.prompt
  {
    var r := PromptText(s);
    assert r == r[..0] + [r[0]] + r[1..];
  }

  // Response shapes

  /** `x?.error?.message`, the message of an error body. */
  function ErrorField(x: Json): Json {
    OptProp(OptProp(x, "error"), "message")
  }

  /** `x.choices?.[0]?.message?.content`, the first chat choice's text. */
  function ChoiceContent(x: Json): Json {
    OptProp(OptProp(OptAt0(OptProp(x, "choices")), "message"), "content")
  }

  /** `x.output?.[0]?.content`. */
  function OutputContent(x: Json): Json {
    OptProp(OptAt0(OptProp(x, "output")), "content")
  }

  /** `x.output_text ?? x.output?.[0]?.content?.map(part).join('') ?? ''`
      for a value `x` that is not nullish. `None` is the TypeError thrown
      when the content is neither nullish nor an array, or when `part`
      throws on one of its elements. */
  function OutputText(x: Json, part: Json -> Option<string>): (r: Option<Json>)
    ensures !OptProp(x, "output_text").IsNullish() ==> r == Some(OptProp(x, "output_text"))
    ensures OptProp(x, "output_text").IsNullish() && OutputContent(x).IsNullish() ==> r == Some(Str(""))
    ensures OptProp(x, "output_text").IsNullish() && !OutputContent(x).IsNullish() && !OutputContent(x).Arr?
            ==> r.None?
    ensures OptProp(x, "output_text").IsNullish() && OutputContent(x).Arr?
            ==> (r.Some? <==> forall i :: 0 <= i < |OutputContent(x).items| ==> part(OutputContent(x).items[i]).Some?)
    ensures OptProp(x, "output_text").IsNullish() && OutputContent(x).Arr? && r.Some?
            ==> r.value == Str(JoinWith(MappedPieces(OutputContent(x).items, part), ""))
    ensures OptProp(x, "output_text").IsNullish() && r.Some? ==> r.value.Str?
  {
    var ot := OptProp(x, "output_text");
    if !ot.IsNullish() then Some(ot)
    else
      match OptMapJoin(OutputContent(x), part)
      case None => None
      case Some(j) => Some(Coalesce(j, Str("")))
  }

  /** `${prefix}${status}: ${serialised}`, the message of a non-ok
      response in the adapters that report the body. */
  function StatusMessage(prefix: string, status: nat, serialised: string): (m: string)
    ensures |m| > |prefix| + 2 + |serialised|
    ensures m[..|prefix|] == prefix
    ensures m[|prefix|..|m| - |serialised|] == NatToString(status) + ": "
    ensures m[|m| - |serialised|..] == serialised
  {
    var d := NatToString(status) + ": ";
    var m := prefix + d + serialised;
    assert m[|prefix|..|m| - |serialised|] == d;
    m
  }

  /** `raw === true`: the output carries the body only for a literal
      `true`. */
  function RawWhen(flag: Option<bool>, body: Json): (r: Option<Json>)
    ensures r.Some? <==> flag == Some(true)
    ensures r.Some? ==> r.value == body
  {
    if flag == Some(true) then Some(body) else None
  }
}

=== FILE: validate.dfy ===
/** The two gates run before any request is sent: `validateProvider` checks
    that a request selects exactly one backend and fills its model and
    prompt, and `validateConfig` checks that at least one backend is
    configured and that every configured backend has a usable key. */
module Validate {
  import opened Wrappers
  import opened Js
  import opened Types

  /** `Number(hasX)`. */
  function Flag(present: bool): nat {
    if present then 1 else 0
  }

  /** The number of request sections present, summed one flag per backend. */
  function SectionCount(req: Request): nat {
    Flag(req.google.Some?) + Flag(req.openai.Some?) + Flag(req.deepseek.Some?)
    + Flag(req.mistral.Some?) + Flag(req.anthropic.Some?)
  }

  /** The checks on one present section: its model first, then its prompt,
      each failing when nothing is left after trimming. */
  function CheckSection(b: Backend, s: Section): Result<(), SdkError> {
    if Trim(s.model) == "" then Err(SdkError(Name(b) + ".model is required", Name(b)))
    else if Trim(s.prompt) == "" then Err(SdkError(Name(b) + ".prompt is required", Name(b)))
    else Ok(())
  }

  /** The per-backend blocks of `validateProvider`, run in order over `bs`:
      the first present section that fails decides the error. */
  function CheckSections(req: Request, bs: seq<Backend>): Result<(), SdkError>
    decreases |bs|
  {
    if |bs| == 0 then Ok(())
    else
      match SectionOf(req, bs[0])
      case None => CheckSections(req, bs[1..])
      case Some(s) =>
        var r := CheckSection(bs[0], s);
        if r.Err? then r else CheckSections(req, bs[1..])
  }

  /** When exactly one backend among `bs` has a section, the block chain is
      that backend's checks alone. */
  lemma {:induction false} CheckSectionsSingle(req: Request, bs: seq<Backend>)
    requires |PresentAmong(req, bs)| == 1
    ensures CheckSections(req, bs)
            == CheckSection(PresentAmong(req, bs)[0], SectionOf(req, PresentAmong(req, bs)[0]).value)
    decreases |bs|
  {
    if SectionOf(req, bs[0]).Some? {
      assert PresentAmong(req, bs) == [bs[0]] + PresentAmong(req, bs[1..]);
      CheckSectionsNone(req, bs[1..]);
    } else {
      CheckSectionsSingle(req, bs[1..]);
    }
  }

  lemma {:induction false} CheckSectionsNone(req: Request, bs: seq<Backend>)
    requires |PresentAmong(req, bs)| == 0
    ensures CheckSections(req, bs) == Ok(())
    decreases |bs|
  {
    if |bs| > 0 {
      CheckSectionsNone(req, bs[1..]);
    }
  }

  lemma SectionCountIsSelected(req: Request)
    ensures SectionCount(req) == |Selected(req)|
  {
    assert Backends[1..][1..][1..][1..][1..] == [];
  }

  /** `validateProvider`. */
  function ValidateProvider(req: Request): (r: Result<(), SdkError>)
    ensures |Selected(req)| == 0 <==> r == Err(SdkError("No provider passed", "core"))
    ensures |Selected(req)| > 1 ==> r == Err(SdkError("Pass only one provider", "core"))
    ensures |Selected(req)| == 1 ==>
      var b := Selected(req)[0];
      var s := SectionOf(req, b).value;
      && (r.Ok? <==> HasVisible(s.model) && HasVisible(s.prompt))
      && (!HasVisible(s.model) ==> r == Err(SdkError(Name(b) + ".model is required", Name(b))))
      && (HasVisible(s.model) && !HasVisible(s.prompt)
          ==> r == Err(SdkError(Name(b) + ".prompt is required", Name(b))))
  {
    SectionCountIsSelected(req);
    var total := SectionCount(req);
    if total == 0 then Err(SdkError("No provider passed", "core"))
    else if total > 1 then Err(SdkError("Pass only one provider", "core"))
    else
      CheckSectionsSingle(req, Backends);
      CheckSections(req, Backends)
  }

  /** `cfg.b?.apiKey`. */
  function KeyOf(cfg: Config, b: Backend): Json {
    match KeySectionOf(cfg, b)
    case Some(ks) => ks.apiKey
    case None => Undefined
  }

  /** `typeof key === 'string' && key.trim().length !== 0`. */
  predicate KeyUsable(key: Json) {
    key.Str? && HasVisible(key.s)
  }

  /** The error `validateConfig` raises for a configured backend whose key
      is unusable. */
  function KeyError(b: Backend): SdkError {
    SdkError(Name(b) + ".apiKey is required", Name(b))
  }

  /** `k` is the position of the first configured backend with an unusable
      key. */
  predicate FirstUnusableAt(cfg: Config, cs: seq<Backend>, k: int) {
    && 0 <= k < |cs|
    && !KeyUsable(KeyOf(cfg, cs[k]))
    && forall j :: 0 <= j < k ==> KeyUsable(KeyOf(cfg, cs[j]))
  }

  /** Every configured backend in `cs` has a usable key. */
  predicate AllUsable(cfg: Config, cs: seq<Backend>) {
    forall k :: 0 <= k < |cs| ==> KeyUsable(KeyOf(cfg, cs[k]))
  }

  /** The per-backend key blocks of `validateConfig`, run in order over
      `bs`. */
  function CheckKeys(cfg: Config, bs: seq<Backend>): Result<(), SdkError>
    decreases |bs|
  {
    if |bs| == 0 then Ok(())
    else
      match KeySectionOf(cfg, bs[0])
      case None => CheckKeys(cfg, bs[1..])
      case Some(ks) =>
        var key := ks.apiKey;
        if !key.Str? || |Trim(key.s)| == 0 then Err(KeyError(bs[0]))
        else CheckKeys(cfg, bs[1..])
  }

  /** The key blocks pass exactly when every configured backend among `bs`
      has a usable key. */
  lemma {:induction false} CheckKeysOk(cfg: Config, bs: seq<Backend>)
    ensures CheckKeys(cfg, bs).Ok? <==> AllUsable(cfg, ConfiguredAmong(cfg, bs))
    decreases |bs|
  {
    if |bs| > 0 {
      CheckKeysOk(cfg, bs[1..]);
      var rest := ConfiguredAmong(cfg, bs[1..]);
      var cs := ConfiguredAmong(cfg, bs);
      if KeySectionOf(cfg, bs[0]).Some? {
        assert cs == [bs[0]] + rest;
        assert forall k :: 0 < k < |cs| ==> cs[k] == rest[k - 1];
      } else {
        assert cs == rest;
      }
    }
  }

  /** When a configured backend's key is unusable and every earlier one's is
      usable, the key blocks fail with that backend's error. */
  lemma {:induction false} CheckKeysFirst(cfg: Config, bs: seq<Backend>, k: int)
    requires FirstUnusableAt(cfg, ConfiguredAmong(cfg, bs), k)
    ensures CheckKeys(cfg, bs) == Err(KeyError(ConfiguredAmong(cfg, bs)[k]))
    decreases |bs|
  {
    var rest := ConfiguredAmong(cfg, bs[1..]);
    var cs := ConfiguredAmong(cfg, bs);
    if KeySectionOf(cfg, bs[0]).Some? {
      assert cs == [bs[0]] + rest;
      if k > 0 {
        assert KeyUsable(KeyOf(cfg, cs[0]));
        assert forall j :: 0 < j < |cs| ==> cs[j] == rest[j - 1];
        forall j | 0 <= j < k - 1
          ensures KeyUsable(KeyOf(cfg, rest[j]))
        {
          assert rest[j] == cs[j + 1];
        }
        assert FirstUnusableAt(cfg, rest, k - 1);
        CheckKeysFirst(cfg, bs[1..], k - 1);
      }
    } else {
      assert cs == rest;
      CheckKeysFirst(cfg, bs[1..], k);
    }
  }

  /** No configured backend is the same as all five sections missing. */
  lemma ConfiguredEmpty(c: Config)
    ensures |Configured(c)| == 0
            <==> c.google.None? && c.openai.None? && c.deepseek.None? && c.mistral.None? && c.anthropic.None?
  {
    assert Backends[1..][1..][1..][1..][1..] == [];
  }

  /** `validateConfig`; `None` is a missing configuration object. */
  function ValidateConfig(cfg: Option<Config>): (r: Result<(), SdkError>)
    ensures cfg.None? ==> r == Err(SdkError("no providers configured", "core"))
    ensures cfg.Some? && |Configured(cfg.value)| == 0
            ==> r == Err(SdkError("no providers configured", "core"))
    ensures r.Ok? <==> && cfg.Some?
                       && |Configured(cfg.value)| > 0
                       && AllUsable(cfg.value, Configured(cfg.value))
    ensures cfg.Some? ==> forall k :: FirstUnusableAt(cfg.value, Configured(cfg.value), k)
                                      ==> r == Err(KeyError(Configured(cfg.value)[k]))
  {
    match cfg
    case None => Err(SdkError("no providers configured", "core"))
    case Some(c) =>
      ConfiguredEmpty(c);
      if c.google.None? && c.openai.None? && c.deepseek.None? && c.mistral.None? && c.anthropic.None? then
        Err(SdkError("no providers configured", "core"))
      else
        CheckKeysOk(c, Backends);
        assert forall k :: FirstUnusableAt(c, Configured(c), k)
                           ==> CheckKeys(c, Backends) == Err(KeyError(Configured(c)[k])) by {
          forall k | FirstUnusableAt(c, Configured(c), k) {
            CheckKeysFirst(c, Backends, k);
          }
        }
        CheckKeys(c, Backends)
  }
}

=== FILE: wrappers.dfy ===
/** Optional values and success-or-error results, used for JavaScript's
    optional fields and for the exceptions the adapters throw. */
module Wrappers {

  datatype Option<+T> = None | Some(value: T) {

    /** The wrapped value, or `default` when there is none (JavaScript's `x ?? d`
        on a typed optional field). */
    function GetOr(default: T): T {
      match this
      case Some(v) => v
      case None => default
    }
  }

  /** The outcome of an operation that either returns a value or throws. */
  datatype Result<+T, +E> = Ok(value: T) | Err(error: E)
}
